=== FILE: README.md ===
# time-tracker, modelled in Dafny

A Dafny model of the core of the time-tracker app (a Svelte desktop app
with a Tauri/Rust backend, an older browser-side version of it, and a
Raycast extension). The model covers the following parts:

- **Duration and date text.**
  - `formatTime`, `formatTimeHuman` and `parseTimeString` of the desktop app,
    and the older `formatTime` that drops the hours under one hour.
  - The Raycast extension's `formatDuration`.
  - `getDateString` and `addDays` on "YYYY-MM-DD" strings.
- **The `tasks` table.**
  - The Tauri commands of `commands/tasks.rs`, each as an operation on a map
    from task id to row.
  - The older `src/lib/tasks.ts` functions, whose table has a `date` column.
  - SQLite's text ordering and `date(…)`.
- **The active timer.**
  - `startTracking`, the one-second tick, `stopTrackingSync`, `stopTracking`
    and `cleanup`, as a state machine.
  - The timer wired to either table, so that what a stop saves lands in the
    table.
- **The sidebar width.**
  - Restored from local storage, set with a snap to the collapsed width, and
    written back as text.
- **The global keyboard shortcuts.**
  - A registry keyed by id, the keydown dispatch, and the listener's
    init/cleanup.

JavaScript number semantics are written out on unbounded integers:

- floored `Math.floor` division;
- the truncating `%`;
- `String(n)`;
- `padStart(2, "0")`;
- `trim`;
- `parseInt`, where `NaN` is `None`.

Every formatter has a reader as its partner:

- `parseTimeString` for the clock forms;
- a small duration reader (`DurationText.ReadDuration`) for the "2h 30m" forms;
- `ParseDate` for dates.

The round trips are proved. Date arithmetic is proved against an independent
day-number reference. The text order that SQLite uses on dates is proved to
be the order of the days.

Modules, by file:

| file | module | models |
|---|---|---|
| optional.dfy | `Optional` | `null`/`undefined`/`NaN` as `None` |
| text.dfy | `Text` | digits, numerals, `padStart`, `trim`, `split`/`join` |
| js_num.dfy | `JsNum` | `Math.floor` division, `%`, `String(n)`, `parseInt` |
| duration_text.dfy | `DurationText` | reading "1h 5m 3s" back as seconds |
| clock_format.dfy | `ClockFormat` | tauri-app/src/lib/timeUtils.ts, the duration functions |
| legacy_clock_format.dfy | `LegacyClockFormat` | src/lib/timeUtils.ts |
| raycast_duration.dfy | `RaycastDuration` | `formatDuration` of the Raycast command |
| calendar.dfy | `Calendar` | `getDateString` and `addDays` |
| date_order.dfy | `DateOrder` | text order of "YYYY-MM-DD" versus day order |
| ordering.dfy | `Ordering` | `ORDER BY … DESC` on text columns |
| table.dfy | `Table` | a keyed table, `UPDATE … WHERE id = ?`, `SELECT … WHERE` |
| task_store.dfy | `TaskStore` | tauri-app/src-tauri/src/commands/tasks.rs |
| legacy_task_store.dfy | `LegacyTaskStore` | src/lib/tasks.ts |
| tracking.dfy | `Tracking` | the timer state machine of both tracking hooks |
| session.dfy | `Session` | the Tauri timer saving into the Tauri table |
| legacy_session.dfy | `LegacySession` | the older timer saving into the older table |
| sidebar.dfy | `Sidebar` | tauri-app/src/lib/hooks/sidebar.svelte.ts |
| keyboard.dfy | `Keyboard` | tauri-app/src/lib/hooks/keyboard.svelte.ts |

Inputs the program takes from outside are parameters:

- `Date.now()`, as the `now` argument in milliseconds;
- today's date, as a string;
- the creation timestamp the database fills in;
- local storage contents, as an optional string;
- the user-agent test for a Mac, as a boolean;
- what each shortcut handler answers, as a function.

## Model

| member | source | states |
|---|---|---|
| `JsNum.ParseIntOfIntToString` | tauri-app/src/lib/hooks/sidebar.svelte.ts:14 | `parseInt` reads back every integer `String(n)` prints |
| `Text.PadStart2Value` | tauri-app/src/lib/timeUtils.ts:9 | padding a numeral to two places keeps its value, and a value below 100 gives exactly two digits |
| `Text.SplitOfJoin` | raycast-extension/src/new-command.tsx:89 | splitting parts joined with a separator they do not contain gives the parts back |
| `Text.TrimUnpadded` | tauri-app/src/lib/timeUtils.ts:79 | trimming leaves a string that neither starts nor ends with whitespace unchanged |
| `Text.TrimIdempotent` | tauri-app/src/lib/timeUtils.ts:79 | trimming a trimmed string changes nothing |
| `Text.TrimPadded` | tauri-app/src/lib/timeUtils.ts:79 | white space around an unpadded string is exactly what trimming removes |
| `ClockFormat.FormatTime` | tauri-app/src/lib/timeUtils.ts:4-11 | a non-negative total prints as three colon-separated numeral fields: the whole hours (padded to two digits and no further), the minutes below 60 (two digits) and the seconds below 60 (two digits); a negative total `-k` prints its hours as a minus sign and `k` rounded up to whole hours, and its minutes and seconds negated and unpadded ("00" when zero), so -5 prints "-1:-1:-5" |
| `ClockFormat.ParseTimeString` | tauri-app/src/lib/timeUtils.ts:78-95 | blank input gives `null`, and anything accepted is two or three colon-separated numerals once trimmed |
| `ClockFormat.ParseTrimmed` | tauri-app/src/lib/timeUtils.ts:78-80 | the result depends only on the trimmed input |
| `ClockFormat.ParsePadded` | tauri-app/src/lib/timeUtils.ts:78-80 | white space before and after an input such as " 1:05:30 " does not change the result |
| `ClockFormat.ParseAcceptsOnlyDigitsAndColons` | tauri-app/src/lib/timeUtils.ts:83 | an accepted input holds only ASCII digits and colons once trimmed |
| `ClockFormat.ParseHoursMinutesSeconds` | tauri-app/src/lib/timeUtils.ts:83-94 | "H:M:S" is accepted exactly when minutes and seconds are below 60, and yields `h*3600 + m*60 + s` |
| `ClockFormat.ParseMinutesSeconds` | tauri-app/src/lib/timeUtils.ts:83-94 | "M:S" is accepted exactly when both fields are below 60, and yields `m*60 + s` with no hours |
| `ClockFormat.ParseFormatTime` | tauri-app/src/lib/timeUtils.ts:4-11 | `parseTimeString(formatTime(n)) == n` for every non-negative `n` |
| `ClockFormat.FormatTimeHuman` | tauri-app/src/lib/timeUtils.ts:16-29 | a non-negative total reads back as its whole minutes (exact seconds under a minute), in at most two parts: the hours part `"{h}h"` leads whenever there is a whole hour, the last part is `"{m}m"` exactly when the minutes below the hour are positive, no part is zero unless the total is, and the text ends in "s" exactly under a minute, where it is the seconds part alone ("0s" for 0); a negative total prints as plain seconds |
| `LegacyClockFormat.FormatTime` | src/lib/timeUtils.ts:4-15 | from one hour up, the same text as the desktop `formatTime`; from 0 to just under an hour, two two-digit fields holding minutes and seconds; a negative total `-k` has negative hours and so takes the short form: the part of `k` below an hour rounded up to whole minutes and the seconds of `k` below a minute, each negated and unpadded ("00" when zero) |
| `LegacyClockFormat.NegativeTotalsPrintShort` | src/lib/timeUtils.ts:5-14 | -5 and -3605 both print "-1:-5", so below zero the hours are lost |
| `LegacyClockFormat.ParseFormatTime` | src/lib/timeUtils.ts:4-15 | the desktop parser reads both forms back to the total |
| `LegacyClockFormat.FormatTimeHuman` | src/lib/timeUtils.ts:20-33 | behaves exactly as the desktop `formatTimeHuman` |
| `RaycastDuration.FormatDuration` | raycast-extension/src/new-command.tsx:79-90 | never empty; a non-negative total reads back as exactly that many seconds; from one hour up the parts are hours, minutes below the hour (kept when zero, as in "1h 0m 5s") and seconds, from one minute up minutes and seconds, below that seconds alone; a negative total prints only the `%` remainder of its seconds |
| `RaycastDuration.ReadsBack` | raycast-extension/src/new-command.tsx:84-89 | the pushed parts of every non-negative total denote that total |
| `Calendar.ShiftNumber` | tauri-app/src/lib/timeUtils.ts:69 | moving a date by `days` moves its day number by exactly `days` |
| `Calendar.ShiftInverse` | tauri-app/src/lib/timeUtils.ts:69 | moving forward and back by the same count returns the original date |
| `Calendar.YearLength` | tauri-app/src/lib/timeUtils.ts:69 | a year has 366 days exactly when it is a Gregorian leap year |
| `Calendar.GetDateString` | tauri-app/src/lib/timeUtils.ts:57-62 | prints the year as `String(year)`, then two-digit month and day fields holding the month and the day, separated by dashes |
| `Calendar.ParseDate` | tauri-app/src/lib/timeUtils.ts:68 | only "YYYY-MM-DD" naming a day that exists is read, and it yields a valid date with a year from 0 to 9999 |
| `Calendar.ParseGetDateString` | tauri-app/src/lib/timeUtils.ts:57-62 | a date with a four-digit year prints to a string that reads back as the same date |
| `Calendar.GetDateStringOfParse` | tauri-app/src/lib/timeUtils.ts:57-62 | a readable date string from year 1000 on prints back unchanged |
| `Calendar.AddDays` | tauri-app/src/lib/timeUtils.ts:67-71 | an unreadable date gives "NaN-NaN-NaN"; otherwise the result is the date whose day number is `days` further on, and reads back as that date while its year has four digits |
| `Calendar.AddDaysZero` | tauri-app/src/lib/timeUtils.ts:67-71 | adding zero days gives the same string back |
| `Calendar.AddDaysInverse` | tauri-app/src/lib/timeUtils.ts:67-71 | adding `days` and then `-days` returns the original string |
| `Calendar.AddDaysLeapDay` | tauri-app/src/lib/timeUtils.ts:67-71 | "2024-02-28" plus one day is "2024-02-29" |
| `Calendar.AddDaysBackFromLeapDay` | tauri-app/src/lib/timeUtils.ts:67-71 | "2024-02-29" minus one day is "2024-02-28" |
| `Calendar.AddDaysYearEnd` | tauri-app/src/lib/timeUtils.ts:67-71 | "2024-12-31" plus one day is "2025-01-01" |
| `Calendar.AddDaysInvalidMonth` | tauri-app/src/lib/timeUtils.ts:67-71 | month 13 is an invalid date and prints "NaN-NaN-NaN" |
| `Calendar.AddDaysInvalidLeapDay` | tauri-app/src/lib/timeUtils.ts:67-71 | February 29 of a non-leap year is an invalid date |
| `Calendar.AddDaysBelowYearOneThousand` | tauri-app/src/lib/timeUtils.ts:58-61 | "1000-01-01" minus one day prints "999-12-31", which no longer reads as a date |
| `DateOrder.DigitsOrder` | tauri-app/src-tauri/src/commands/tasks.rs:146 | numerals of equal length compare as text exactly as their values compare |
| `DateOrder.TextOrderIsDateOrder` | tauri-app/src-tauri/src/commands/tasks.rs:146 | two readable date strings compare as text exactly as year, month, day compare |
| `DateOrder.OnOrBeforeIsDayNumberOrder` | tauri-app/src/lib/timeUtils.ts:69 | calendar order is day-number order |
| `DateOrder.TextOrderIsDayOrder` | tauri-app/src-tauri/src/commands/tasks.rs:146 | two readable date strings compare as text exactly as their day numbers |
| `Ordering.StrLeTransitive` | tauri-app/src-tauri/src/commands/tasks.rs:13 | the text order SQLite sorts by is transitive |
| `Ordering.StrLeAntisymmetric` | tauri-app/src-tauri/src/commands/tasks.rs:13 | two texts ordered both ways are equal |
| `Ordering.KeyLeTransitive` | src/lib/tasks.ts:83 | the column-by-column order of sort keys is transitive |
| `Ordering.Insert` | tauri-app/src-tauri/src/commands/tasks.rs:13 | inserting into a descending list keeps it descending and adds exactly the new element |
| `Ordering.SortDesc` | tauri-app/src-tauri/src/commands/tasks.rs:13 | `ORDER BY … DESC`: the result is a permutation of the input, largest key first |
| `Table.Update` | tauri-app/src-tauri/src/commands/tasks.rs:110 | `UPDATE … WHERE id = ?` changes that row only, and changes nothing when no row has the id |
| `Table.Select` | tauri-app/src-tauri/src/commands/tasks.rs:13 | a `WHERE` scan returns each stored row it accepts exactly once, in id order |
| `TaskStore.GetTaskById` | tauri-app/src-tauri/src/commands/tasks.rs:212-233 | the row with that id, or `None` when no row has it |
| `TaskStore.CreateTask` | tauri-app/src-tauri/src/commands/tasks.rs:42-80 | a new row under the next `AUTOINCREMENT` id, which no row holds and which the counter then moves past: the name, the initial seconds or 0, midnight of the date as creation time, no note; no other row changes |
| `TaskStore.NoIdReuse` | tauri-app/src-tauri/src/db.rs:45 | a task created after another was created and deleted gets a larger id, so ids are never reused |
| `TaskStore.InitialSecondsArgument` | tauri-app/src/lib/services/tasks.ts:51 | initial seconds are sent only when positive |
| `TaskStore.UpdateTaskTime` | tauri-app/src-tauri/src/commands/tasks.rs:84-98 | only that row's total changes, to the given value |
| `TaskStore.AddTimeToTask` | tauri-app/src-tauri/src/commands/tasks.rs:102-116 | only that row's total changes, by the given seconds; an unknown id changes nothing |
| `TaskStore.AdjustTaskTime` | tauri-app/src-tauri/src/commands/tasks.rs:120-134 | the same statement as `add_time_to_task`: a signed increment, not clamped at zero |
| `TaskStore.UpdateTaskName` | tauri-app/src-tauri/src/commands/tasks.rs:168-179 | only that row's name changes |
| `TaskStore.UpdateTaskNote` | tauri-app/src-tauri/src/commands/tasks.rs:237-248 | only that row's note changes; `None` clears it |
| `TaskStore.DeleteTask` | tauri-app/src-tauri/src/commands/tasks.rs:183-190 | the row is gone, and every other row is unchanged |
| `TaskStore.DateOf` | tauri-app/src-tauri/src/commands/tasks.rs:13 | `date(created_at)` of a stored timestamp is its first ten characters, a readable date |
| `TaskStore.GetTasksForDate` | tauri-app/src-tauri/src/commands/tasks.rs:9-31 | each task whose creation day is `date`, exactly once, newest first |
| `TaskStore.GetTodaysTasks` | tauri-app/src-tauri/src/commands/tasks.rs:35-38 | each task of today exactly once, newest first |
| `TaskStore.GetTasksInRange` | tauri-app/src-tauri/src/commands/tasks.rs:138-164 | each task whose creation day lies between the bounds (both included), exactly once, newest first |
| `TaskStore.RangeOfOneDay` | tauri-app/src-tauri/src/commands/tasks.rs:146 | a one-day range lists the same tasks as that day |
| `TaskStore.RangeByDayNumber` | tauri-app/src-tauri/src/commands/tasks.rs:146 | with readable bounds, the range holds exactly the tasks whose day number lies between the bounds' day numbers |
| `TaskStore.WeekRange` | tauri-app/src-tauri/src/commands/tasks.rs:146 | the range from a date to `addDays(date, 6)` holds exactly the tasks of those seven days |
| `TaskStore.CreatedTaskListed` | tauri-app/src-tauri/src/commands/tasks.rs:52 | a task created for a readable date is listed for that date |
| `TaskStore.CreatedTotalNonNegative` | tauri-app/src/lib/services/tasks.ts:51 | through the service wrapper, a new task's total is the positive initial seconds or 0 |
| `TaskStore.CreateThenDelete` | tauri-app/src-tauri/src/commands/tasks.rs:54-57 | deleting a task just created restores the rows, and the id stays used up |
| `LegacyTaskStore.Get` | src/lib/tasks.ts:42 | `SELECT * FROM tasks WHERE id = ?`: the row with that id, or `None` |
| `LegacyTaskStore.CreateTask` | src/lib/tasks.ts:32-45 | a new row dated today with a zero total under the next `AUTOINCREMENT` id, which the counter then moves past; no other row changes |
| `LegacyTaskStore.UpdateTaskTime` | src/lib/tasks.ts:50-53 | only that row's total changes, to the given value |
| `LegacyTaskStore.AddTimeToTask` | src/lib/tasks.ts:58-64 | only that row's total changes, by the given seconds |
| `LegacyTaskStore.AdjustTaskTime` | src/lib/tasks.ts:69-75 | the same signed, unclamped increment |
| `LegacyTaskStore.DeleteTask` | src/lib/tasks.ts:91-94 | the row is gone, and every other row is unchanged |
| `LegacyTaskStore.GetTodaysTasks` | src/lib/tasks.ts:21-27 | each task dated today exactly once, newest first |
| `LegacyTaskStore.GetTasksInRange` | src/lib/tasks.ts:80-86 | each task dated within the bounds exactly once, latest day first and newest first within a day |
| `LegacyTaskStore.RangeByDay` | src/lib/tasks.ts:83 | in the range listing a later day always comes before an earlier one |
| `LegacyTaskStore.RangeByDayNumber` | src/lib/tasks.ts:83 | with readable dates, the range holds exactly the tasks whose day number lies between the bounds' day numbers |
| `LegacyTaskStore.CreatedTaskListed` | src/lib/tasks.ts:32-45 | a task created today is listed today and in every range that includes today |
| `Tracking.IsTracking` | tauri-app/src/lib/hooks/tracking.svelte.ts:10 | tracking exactly while a task is current; `Tracking.ArmedAlong` ties it to the running interval |
| `Tracking.StopSync` | tauri-app/src/lib/hooks/tracking.svelte.ts:41-53 | back to idle, returning the last ticked elapsed seconds |
| `Tracking.Start` | tauri-app/src/lib/hooks/tracking.svelte.ts:15-36 | the task becomes current with a fresh count; the same task (by id) is left untouched; the fields stay consistent and the interval runs exactly while tracking |
| `Tracking.Tick` | tauri-app/src/lib/hooks/tracking.svelte.ts:31-35 | while the interval runs and the start is truthy, the elapsed seconds are the whole seconds since the start; otherwise nothing changes |
| `Tracking.Stop` | tauri-app/src/lib/hooks/tracking.svelte.ts:58-68 | idle afterwards; a save of the elapsed seconds to the tracked task is asked for exactly when a task was tracked with positive elapsed time |
| `Tracking.Cleanup` | tauri-app/src/lib/hooks/tracking.svelte.ts:73-77 | the interval stops firing while the task, count and handle are kept |
| `Tracking.ArmedAlong` | tauri-app/src/lib/hooks/tracking.svelte.ts:15-68 | under any sequence of starts, ticks and stops, the interval runs exactly while a task is tracked |
| `Tracking.SwitchDropsElapsed` | tauri-app/src/lib/hooks/tracking.svelte.ts:16-19 | switching to another task zeroes the count, and no save is asked for |
| `Tracking.StartTickStop` | tauri-app/src/lib/hooks/tracking.svelte.ts:26-35 | start, one tick and a stop save the whole seconds between start and tick |
| `Tracking.StopTwice` | tauri-app/src/lib/hooks/tracking.svelte.ts:58-60 | a second stop asks for no save |
| `Tracking.TickMonotone` | tauri-app/src/lib/hooks/tracking.svelte.ts:31-35 | a later tick never shows fewer elapsed seconds |
| `Tracking.StartAndSave` | tauri-app/src/lib/hooks/tracking.svelte.ts:16-19 | the switch the comment describes: same new state as `startTracking`, plus a save of the old task's elapsed seconds when there are any |
| `Tracking.StartAndSaveIsStopThenStart` | tauri-app/src/lib/hooks/tracking.svelte.ts:16-19 | the saving switch is a stop followed by a start |
| `Session.Start` | tauri-app/src/lib/hooks/tracking.svelte.ts:15-36 | the table is untouched; starting the tracked task again changes nothing, and any other task starts a fresh count at the given time with the interval running |
| `Session.Tick` | tauri-app/src/lib/hooks/tracking.svelte.ts:31-35 | the table and the tracked task are untouched; while the interval runs with a truthy start the count is the whole seconds since the start, otherwise nothing changes |
| `Session.Stop` | tauri-app/src/lib/hooks/tracking.svelte.ts:58-68 | idle afterwards; the tracked task's row is the old row with its total grown by the positive elapsed seconds; every other row and the next id are unchanged |
| `Session.CloseWindow` | tauri-app/src/lib/hooks/keyboard.svelte.ts:42-47 | closing the window first stops the timer and saves its time: the tracked row gains the positive elapsed seconds in its total and nothing else; every other row and the next id are unchanged |
| `Session.StartTickStop` | tauri-app/src/lib/hooks/tracking.svelte.ts:15-68 | start, tick and stop add the whole seconds between start and tick to that task's stored total, and to no other |
| `Session.SwitchLosesTime` | tauri-app/src/lib/hooks/tracking.svelte.ts:16-19 | switching tasks and then stopping leaves the table exactly as it was |
| `Session.StartSaving` | tauri-app/src/lib/hooks/tracking.svelte.ts:16-19 | the corrected switch: same timer state as `startTracking`, and no row other than the old task's changes |
| `Session.SwitchSavingKeepsTime` | tauri-app/src/lib/hooks/tracking.svelte.ts:16-19 | with the corrected switch the old task gains its elapsed seconds, exactly as a stop then a start would give |
| `Session.StopAfterDelete` | tauri-app/src-tauri/src/commands/tasks.rs:110 | time saved for a task deleted while tracked goes nowhere |
| `LegacySession.Start` | src/lib/tracking.svelte.ts:29-50 | the table is untouched; starting the tracked task again changes nothing, and any other task starts a fresh count at the given time with the interval running |
| `LegacySession.Tick` | src/lib/tracking.svelte.ts:45-49 | the table and the tracked task are untouched; while the interval runs with a truthy start the count is the whole seconds since the start, otherwise nothing changes |
| `LegacySession.Stop` | src/lib/tracking.svelte.ts:72-82 | idle afterwards; the tracked task gains its positive elapsed seconds and no other row changes |
| `LegacySession.StartTickStop` | src/lib/tracking.svelte.ts:29-82 | start, tick and stop add the whole seconds between start and tick to that task only |
| `LegacySession.SwitchLosesTime` | src/lib/tracking.svelte.ts:30-33 | switching tasks and then stopping leaves the older table as it was |
| `Sidebar.Clamp` | tauri-app/src/lib/hooks/sidebar.svelte.ts:27 | the width lies in 60..300: a width in range is kept, one below goes to 60 and one above to 300 |
| `Sidebar.Init` | tauri-app/src/lib/hooks/sidebar.svelte.ts:10-20 | a missing, empty or unreadable stored value keeps the width; a readable one becomes `Clamp` of it: kept if in 60..300, otherwise the nearer bound; the stored text is read as `parseInt` reads it, so "80px" gives 80 and "80.5" stops at the dot |
| `Sidebar.SetWidth` | tauri-app/src/lib/hooks/sidebar.svelte.ts:22-28 | the width becomes 60 exactly when the value is below 100; from 100 up it is `Clamp` of the value: kept up to 300, and 300 above that |
| `Sidebar.Persisted` | tauri-app/src/lib/hooks/sidebar.svelte.ts:31 | the stored text parses back to the width |
| `Sidebar.InitRestoresSetWidth` | tauri-app/src/lib/hooks/sidebar.svelte.ts:10-33 | the width `setWidth` stores is the one `init` restores |
| `Sidebar.InitDoesNotSnap` | tauri-app/src/lib/hooks/sidebar.svelte.ts:14-16 | a stored 80 is restored as 80, though `setWidth(80)` gives 60 |
| `Sidebar.InitKeepsDefault` | tauri-app/src/lib/hooks/sidebar.svelte.ts:10-20 | no item, an empty one or a non-number keeps the default 200 |
| `Sidebar.Collapsed` | tauri-app/src/lib/hooks/sidebar.svelte.ts:41-43 | collapsed exactly at or below the minimum width; `Sidebar.CollapsedAfterSetWidth` relates it to `setWidth` |
| `Sidebar.CollapsedAfterSetWidth` | tauri-app/src/lib/hooks/sidebar.svelte.ts:41-43 | collapsed after `setWidth(v)` exactly when `v` is below 100 |
| `Keyboard.FindIndex` | tauri-app/src/lib/hooks/keyboard.svelte.ts:76 | the first position holding the id, or -1 when none does |
| `Keyboard.RemoveFirstIsWithout` | tauri-app/src/lib/hooks/keyboard.svelte.ts:76-79 | with unique ids, splicing out the found entry removes every entry for the id and keeps the others in order |
| `Keyboard.Register` | tauri-app/src/lib/hooks/keyboard.svelte.ts:74-81 | ids stay unique, the new entry is last, and the rest is the old list without the id |
| `Keyboard.Unregister` | tauri-app/src/lib/hooks/keyboard.svelte.ts:83-88 | removes the entry for the id, if any, and nothing else |
| `Keyboard.RegisterReplaces` | tauri-app/src/lib/hooks/keyboard.svelte.ts:74-81 | registering twice under one id is the same as registering the latest handler once |
| `Keyboard.UnregisterAfterRegister` | tauri-app/src/lib/hooks/keyboard.svelte.ts:74-89 | unregistering right after registering leaves the list without the id |
| `Keyboard.Dispatch` | tauri-app/src/lib/hooks/keyboard.svelte.ts:30-36 | handlers are called in order until the first one that handles the event; none after it is called |
| `Keyboard.HandleKeydown` | tauri-app/src/lib/hooks/keyboard.svelte.ts:18-37 | Cmd on a Mac or Ctrl elsewhere, with "w" or "q", closes the window without calling any handler; any other key goes to the first handler that takes it |
| `Keyboard.Init` | tauri-app/src/lib/hooks/keyboard.svelte.ts:53-57 | initialized afterwards; an initialized registry is left as it is, and an uninitialized one attaches the listener |
| `Keyboard.Cleanup` | tauri-app/src/lib/hooks/keyboard.svelte.ts:63-67 | uninitialized afterwards; an uninitialized registry is left as it is, and an initialized one detaches the listener |
| `Keyboard.InitCleanupCycle` | tauri-app/src/lib/hooks/keyboard.svelte.ts:53-67 | `init` twice is `init` once, `cleanup` twice is `cleanup` once, and `init` after `cleanup` attaches the listener again |

## Left out

- Svelte reactivity, the real `setInterval` and `clearInterval`: the interval
  callback is the `Tick` transition, and `Date.now()` is an argument.
- The SQLite engine itself: locking, the `Result` error paths of the
  commands (all I/O failures), and row decoding.
- The 64-bit width of the stored integers. Totals and ids are unbounded, so
  neither an `i64` overflow nor SQLite's switch to a floating-point value is
  modelled.
- `date(created_at)` for timestamp forms other than "YYYY-MM-DD" and
  "YYYY-MM-DD HH:MM:SS". SQLite also accepts other forms, and it
  normalises out-of-range days; here those are `NULL`.
- The order of tasks with equal `created_at`. SQL leaves it unspecified;
  the model uses a stable sort, and the contracts state only the
  descending order.
- `Ordering.SortDesc`: does not state that rows with equal keys keep their
  order, because the SQL statement promises no such thing.
- `get_unique_task_names`, favourites, settings, the updater and the theme
  are not part of this model.
- `getCurrentDate`, `formatDateForDisplay` and `getTodayDate` are left out.
  They depend on the locale and the clock, so "today" is a parameter.
- `updateTaskDate` of the Tauri service layer is left out, because its
  command is not in `commands/tasks.rs`.
- The schema file src/lib/db.ts declares no `date` column, but
  src/lib/tasks.ts reads and writes one. The older table is modelled as
  src/lib/tasks.ts uses it.
- `new Date(s + "T00:00:00")` on anything but "YYYY-MM-DD" naming a real
  day is an invalid date here. Engines differ on other strings, and on
  days past the month's end.
- Calendar: years below 1000 print without padding, so they do not read
  back (see `Calendar.AddDaysBelowYearOneThousand`). Years past 9999 and
  the `Date` range limit of ±8.64e15 ms are not modelled.
- Non-integer and `NaN` numbers: all durations, widths and offsets are
  integers.
- Number magnitude: JavaScript numbers are doubles, and the model uses
  exact integers. Arithmetic above 2^53 rounds in JavaScript, and that is
  not modelled. Every JavaScript-side contract holds only for magnitudes
  below 2^53.
- JsNum.ParseIntOfIntToString: holds only below 1e21. From 1e21 on,
  `String(n)` prints exponent form such as "1e+21", and `parseInt` reads
  only its leading digit. `JsNum.IntToString` prints plain digits at any
  size, so it does not model that form.
- Sidebar widths that are not integers: the model's widths are integers.
- The user-agent test behind `isMac`, and the window-close call itself.
  The close is the `CloseWindow` outcome, and its save is
  `Session.CloseWindow`.
- What a shortcut handler does is not modelled. Its answer is the
  `handles` argument, and the awaiting of async handlers is not modelled.
- `cleanup` followed by `startTracking` of the same task leaves the
  interval dead. The model shows this (the state stays `Cleared`), but no
  lemma is devoted to it.

## Findings

| source | as written | input that shows it | evidently intended | confidence | as-written member | corrected member |
|---|---|---|---|---|---|---|
| tauri-app/src/lib/hooks/tracking.svelte.ts:16-19 | `startTracking` of another task calls `stopTrackingSync()`, drops the elapsed seconds it returns, and never calls `addTimeToTask` | track task 1, let ticks reach 120 s, start task 2, then stop: task 1's total is unchanged | the comment says the running task is stopped "and saved" first, so the elapsed seconds should reach task 1 as `stopTracking` would save them | not executed | `Session.SwitchLosesTime` | `Session.SwitchSavingKeepsTime` |

=== FILE: calendar.dfy ===
/** `addDays` and `getDateString` over "YYYY-MM-DD" strings, as proleptic
    Gregorian day arithmetic. A date string is read as local midnight and
    moved by whole calendar days, then printed with an unpadded year and a
    two-digit month and day. */
module Calendar {
  import opened Text
  import opened Optional
  import opened JsNum

  datatype Date = Date(year: int, month: int, day: int)

  predicate IsLeapYear(y: int) {
    y % 4 == 0 && (y % 100 != 0 || y % 400 == 0)
  }

  function DaysInMonth(y: int, m: int): (n: int)
    requires 1 <= m <= 12
    ensures 28 <= n <= 31
  {
    if m == 2 then (if IsLeapYear(y) then 29 else 28)
    else if m == 4 || m == 6 || m == 9 || m == 11 then 30
    else 31
  }

  /** A day that exists in the proleptic Gregorian calendar. */
  predicate Valid(d: Date) {
    1 <= d.month <= 12 && 1 <= d.day <= DaysInMonth(d.year, d.month)
  }

  /** The day after `d`, rolling over month and year ends. */
  function NextDay(d: Date): (r: Date)
    requires Valid(d)
    ensures Valid(r)
  {
    if d.day < DaysInMonth(d.year, d.month) then d.(day := d.day + 1)
    else if d.month < 12 then Date(d.year, d.month + 1, 1)
    else Date(d.year + 1, 1, 1)
  }

  /** The day before `d`. */
  function PrevDay(d: Date): (r: Date)
    requires Valid(d)
    ensures Valid(r)
  {
    if d.day > 1 then d.(day := d.day - 1)
    else if d.month > 1 then Date(d.year, d.month - 1, DaysInMonth(d.year, d.month - 1))
    else Date(d.year - 1, 12, 31)
  }

  lemma PrevNext(d: Date)
    requires Valid(d)
    ensures PrevDay(NextDay(d)) == d && NextDay(PrevDay(d)) == d
  {
  }

  /** `date.setDate(date.getDate() + days)`: `d` moved by `days` whole days,
      forwards or backwards. */
  function Shift(d: Date, days: int): (r: Date)
    requires Valid(d)
    ensures Valid(r)
    decreases if days >= 0 then days else -days
  {
    if days == 0 then d
    else if days > 0 then Shift(NextDay(d), days - 1)
    else Shift(PrevDay(d), days + 1)
  }

  /** Days from 0001-01-01 to the first day of year `y`. */
  function DaysBeforeYear(y: int): int {
    365 * (y - 1) + (y - 1) / 4 - (y - 1) / 100 + (y - 1) / 400
  }

  /** Days from the first of the year to the first of month `m`. */
  function DaysBeforeMonth(y: int, m: int): int
    requires 1 <= m <= 12
  {
    [0, 31, 59, 90, 120, 151, 181, 212, 243, 273, 304, 334][m - 1]
    + (if m > 2 && IsLeapYear(y) then 1 else 0)
  }

  /** The position of a date on the line of days, with 0001-01-01 at 0: an
      independent reference for `Shift`. */
  function DayNumber(d: Date): int
    requires Valid(d)
  {
    DaysBeforeYear(d.year) + DaysBeforeMonth(d.year, d.month) + d.day - 1
  }

  lemma {:induction false} DivStep(y: int, c: int)
    requires c > 0
    ensures y / c - (y - 1) / c == if y % c == 0 then 1 else 0
  {
    var q, r := y / c, y % c;
    assert y == c * q + r && 0 <= r < c;
    if r == 0 {
      assert y - 1 == c * (q - 1) + (c - 1);
      DivUnique(y - 1, c, q - 1, c - 1);
    } else {
      assert y - 1 == c * q + (r - 1);
      DivUnique(y - 1, c, q, r - 1);
    }
  }

  /** Divisibility by 100 implies divisibility by 4, and by 400 implies by 100. */
  lemma DivisibilityChain(y: int)
    ensures y % 100 == 0 ==> y % 4 == 0
    ensures y % 400 == 0 ==> y % 100 == 0
  {
    if y % 100 == 0 {
      var k := y / 100;
      assert y == 4 * (25 * k) + 0;
      ModUnique(y, 4, 25 * k, 0);
    }
    if y % 400 == 0 {
      var k := y / 400;
      assert y == 100 * (4 * k) + 0;
      ModUnique(y, 100, 4 * k, 0);
    }
  }

  lemma ModUnique(n: int, c: int, q: int, r: int)
    requires c > 0 && n == c * q + r && 0 <= r < c
    ensures n % c == r
  {
    DivUnique(n, c, q, r);
  }

  /** A year has 366 days exactly when it is a leap year. */
  lemma YearLength(y: int)
    ensures DaysBeforeYear(y + 1) - DaysBeforeYear(y) == if IsLeapYear(y) then 366 else 365
  {
    DivStep(y, 4);
    DivStep(y, 100);
    DivStep(y, 400);
    DivisibilityChain(y);
  }

  /** The next day is one further along the line of days. */
  lemma NextDayNumber(d: Date)
    requires Valid(d)
    ensures DayNumber(NextDay(d)) == DayNumber(d) + 1
  {
    if d.day == DaysInMonth(d.year, d.month) && d.month == 12 {
      YearLength(d.year);
    }
  }

  /** `Shift(d, days)` is `days` further along the line of days. */
  lemma {:induction false} ShiftNumber(d: Date, days: int)
    requires Valid(d)
    ensures DayNumber(Shift(d, days)) == DayNumber(d) + days
    decreases if days >= 0 then days else -days
  {
    if days > 0 {
      ShiftNumber(NextDay(d), days - 1);
      ForwardStep(d, days);
    } else if days < 0 {
      ShiftNumber(PrevDay(d), days + 1);
      BackwardStep(d, days);
    }
  }

  lemma ForwardStep(d: Date, days: int)
    requires Valid(d) && days > 0
    requires DayNumber(Shift(NextDay(d), days - 1)) == DayNumber(NextDay(d)) + days - 1
    ensures DayNumber(Shift(d, days)) == DayNumber(d) + days
  {
    NextDayNumber(d);
  }

  lemma BackwardStep(d: Date, days: int)
    requires Valid(d) && days < 0
    requires DayNumber(Shift(PrevDay(d), days + 1)) == DayNumber(PrevDay(d)) + days + 1
    ensures DayNumber(Shift(d, days)) == DayNumber(d) + days
  {
    NextDayNumber(PrevDay(d));
    PrevNext(d);
  }

  lemma {:induction false} ShiftForwardOnce(d: Date, days: int)
    requires Valid(d) && days >= 0
    ensures Shift(d, days + 1) == NextDay(Shift(d, days))
    decreases days
  {
    if days > 0 {
      ShiftForwardOnce(NextDay(d), days - 1);
    }
  }

  lemma {:induction false} ShiftBackwardOnce(d: Date, days: int)
    requires Valid(d) && days >= 0
    ensures Shift(d, -days - 1) == PrevDay(Shift(d, -days))
    decreases days
  {
    if days > 0 {
      ShiftBackwardOnce(PrevDay(d), days - 1);
    }
  }

  /** Moving forth and back by the same number of days returns to the
      start. */
  lemma {:induction false} ShiftInverse(d: Date, days: int)
    requires Valid(d)
    ensures Shift(Shift(d, days), -days) == d
    decreases if days >= 0 then days else -days
  {
    if days > 0 {
      var x := Shift(d, days - 1);
      ShiftForwardOnce(d, days - 1);
      PrevNext(x);
      ShiftInverse(d, days - 1);
    } else if days < 0 {
      var x := Shift(d, days + 1);
      ShiftBackwardOnce(d, -days - 1);
      PrevNext(x);
      ShiftInverse(d, days + 1);
    }
  }

  /** `getDateString`: the year as `String` prints it, then the month and
      the day padded to two digits, separated by dashes. */
  function GetDateString(d: Date): (r: string)
    requires Valid(d)
    ensures |r| >= 7 && r[|r| - 6] == '-' && r[|r| - 3] == '-'
    ensures r[..|r| - 6] == IntToString(d.year)
    ensures AllDigits(r[|r| - 5..|r| - 3]) && Value(r[|r| - 5..|r| - 3]) == d.month
    ensures AllDigits(r[|r| - 2..]) && Value(r[|r| - 2..]) == d.day
  {
    var y, mm, dd := IntToString(d.year), PadStart2(IntToString(d.month)), PadStart2(IntToString(d.day));
    TwoDigits(d.month);
    TwoDigits(d.day);
    Dashed(y, mm, dd);
    y + "-" + mm + "-" + dd
  }

  /** The pieces of a year, a month and a day joined by dashes. */
  lemma Dashed(y: string, mm: string, dd: string)
    requires |mm| == 2 && |dd| == 2
    ensures var r := y + "-" + mm + "-" + dd;
      && |r| == |y| + 6 && r[|r| - 6] == '-' && r[|r| - 3] == '-'
      && r[..|r| - 6] == y && r[|r| - 5..|r| - 3] == mm && r[|r| - 2..] == dd
  {
  }

  /** A readable date text is its three fields joined by dashes. */
  lemma DateFields(s: string)
    requires ParseDate(s).Some?
    ensures s == s[..4] + "-" + s[5..7] + "-" + s[8..]
  {
    assert s[4] == '-' && s[7] == '-';
  }

  /** A month or day number prints as exactly two digits. */
  lemma TwoDigits(v: int)
    requires 1 <= v <= 31
    ensures |PadStart2(IntToString(v))| == 2
    ensures AllDigits(PadStart2(IntToString(v))) && Value(PadStart2(IntToString(v))) == v
  {
    ValueOfNatToString(v);
    PadStart2Value(NatToString(v));
    if v >= 10 {
      assert NatToString(v) == NatToString(v / 10) + [DigitChar(v % 10)];
    }
  }

  /** `new Date(s + "T00:00:00")` for the strings the app passes: exactly
      "YYYY-MM-DD" naming a day that exists. Anything else is an invalid
      date, here `None`. */
  function ParseDate(s: string): (r: Option<Date>)
    ensures r.Some? ==> Valid(r.value) && 0 <= r.value.year <= 9999
    ensures r.Some? ==> |s| == 10 && s[4] == '-' && s[7] == '-'
  {
    if |s| == 10 && s[4] == '-' && s[7] == '-'
       && AllDigits(s[..4]) && AllDigits(s[5..7]) && AllDigits(s[8..])
    then
      FourDigitBound(s[..4]);
      var d := Date(Value(s[..4]), Value(s[5..7]), Value(s[8..]));
      if Valid(d) then Some(d) else None
    else None
  }

  /** `addDays`: the date `days` days after (or before) the given one, as
      `getDateString` prints it; an unreadable date prints as
      "NaN-NaN-NaN". */
  function AddDays(dateStr: string, days: int): (r: string)
    ensures ParseDate(dateStr).None? ==> r == "NaN-NaN-NaN"
    ensures ParseDate(dateStr).Some? ==>
      && |r| >= 7 && r[|r| - 6] == '-' && r[|r| - 3] == '-'
      && |r[|r| - 5..|r| - 3]| == 2 && |r[|r| - 2..]| == 2
    ensures ParseDate(dateStr).Some? ==>
      var later := Shift(ParseDate(dateStr).value, days);
      && DayNumber(later) == DayNumber(ParseDate(dateStr).value) + days
      && (1000 <= later.year <= 9999 ==> ParseDate(r) == Some(later))
  {
    match ParseDate(dateStr)
    case None => "NaN-NaN-NaN"
    case Some(d) =>
      PrintedShift(d, days);
      GetDateString(Shift(d, days))
  }

  /** What `addDays` prints for a readable date: the date `days` further on
      the line of days, read back while its year has four digits. */
  lemma PrintedShift(d: Date, days: int)
    requires Valid(d)
    ensures var later := Shift(d, days);
      && DayNumber(later) == DayNumber(d) + days
      && (1000 <= later.year <= 9999 ==> ParseDate(GetDateString(later)) == Some(later))
  {
    var later := Shift(d, days);
    ShiftNumber(d, days);
    if 1000 <= later.year <= 9999 {
      ParseGetDateString(later);
    }
  }

  lemma FourDigitBound(s: string)
    requires |s| == 4 && AllDigits(s)
    ensures Value(s) <= 9999
  {
    FourDigitValue(s);
  }

  /** A year from 1000 to 9999 prints as four digits. */
  lemma FourDigitYear(y: int)
    requires 1000 <= y <= 9999
    ensures |IntToString(y)| == 4
  {
    var a := y / 10;
    var b := a / 10;
    var c := b / 10;
    assert NatToString(y) == NatToString(a) + [DigitChar(y % 10)];
    assert NatToString(a) == NatToString(b) + [DigitChar(a % 10)];
    assert NatToString(b) == NatToString(c) + [DigitChar(b % 10)];
  }

  /** A valid date with a four-digit year is read back from what
      `getDateString` prints. */
  lemma ParseGetDateString(d: Date)
    requires Valid(d) && 1000 <= d.year <= 9999
    ensures ParseDate(GetDateString(d)) == Some(d)
  {
    var r := GetDateString(d);
    FourDigitYear(d.year);
    ValueOfNatToString(d.year);
    assert |r| == 10;
    assert r[..4] == IntToString(d.year);
    assert r[5..7] == r[|r| - 5..|r| - 3] && r[8..] == r[|r| - 2..];
  }

  /** A date string with a year of at least 1000 is printed back unchanged. */
  lemma GetDateStringOfParse(s: string)
    requires ParseDate(s).Some? && ParseDate(s).value.year >= 1000
    ensures GetDateString(ParseDate(s).value) == s
  {
    var d := ParseDate(s).value;
    NoLeadingZero(s[..4]);
    NatToStringOfValue(s[..4]);
    PaddedTwoDigits(s[5..7]);
    PaddedTwoDigits(s[8..]);
    DateFields(s);
    assert IntToString(d.year) == s[..4];
  }

  lemma FourDigitValue(s: string)
    requires |s| == 4 && AllDigits(s)
    ensures Value(s) == ((DigitValue(s[0]) * 10 + DigitValue(s[1])) * 10 + DigitValue(s[2])) * 10 + DigitValue(s[3])
  {
    assert s[..3][..2] == s[..2] && s[..2][..1] == s[..1] && s[..1][..0] == [];
    assert Value(s[..1]) == DigitValue(s[0]);
    assert Value(s[..2]) == DigitValue(s[0]) * 10 + DigitValue(s[1]);
    assert Value(s[..3]) == (DigitValue(s[0]) * 10 + DigitValue(s[1])) * 10 + DigitValue(s[2]);
  }

  lemma NoLeadingZero(s: string)
    requires |s| == 4 && AllDigits(s) && Value(s) >= 1000
    ensures IsCanonicalNumeral(s)
  {
    FourDigitValue(s);
  }

  /** Two digits are the padded numeral of their value. */
  lemma PaddedTwoDigits(t: string)
    requires |t| == 2 && AllDigits(t)
    ensures PadStart2(IntToString(Value(t))) == t
  {
    assert Value(t[..1]) == DigitValue(t[0]) by {
      assert t[..1][..0] == [];
    }
    if t[0] == '0' {
      assert NatToString(Value(t)) == [DigitChar(DigitValue(t[1]))];
      assert t == "0" + [t[1]];
    } else {
      NatToStringOfValue(t);
    }
  }

  /** `addDays(d, 0)` gives `d` back for a date with a four-digit year. */
  lemma AddDaysZero(dateStr: string)
    requires ParseDate(dateStr).Some? && ParseDate(dateStr).value.year >= 1000
    ensures AddDays(dateStr, 0) == dateStr
  {
    GetDateStringOfParse(dateStr);
  }

  /** Moving a date forth and back by the same number of days gives it back,
      provided the intermediate date still has a four-digit year (a longer
      year is not in the "YYYY-MM-DD" form the parser reads). */
  lemma AddDaysInverse(dateStr: string, days: int)
    requires ParseDate(dateStr).Some? && ParseDate(dateStr).value.year >= 1000
    requires 1000 <= Shift(ParseDate(dateStr).value, days).year <= 9999
    ensures AddDays(AddDays(dateStr, days), -days) == dateStr
  {
    var d := ParseDate(dateStr).value;
    var later := Shift(d, days);
    ParseGetDateString(later);
    ShiftInverse(d, days);
    GetDateStringOfParse(dateStr);
  }

  /** `addDays` on a concrete date, given what `getDateString` prints for
      the date and for the date moved. */
  lemma AddDaysOn(s: string, d: Date, days: int, t: string)
    requires Valid(d) && 1000 <= d.year <= 9999 && GetDateString(d) == s
    requires GetDateString(Shift(d, days)) == t
    ensures AddDays(s, days) == t
  {
    ParseGetDateString(d);
  }

  lemma Year2024() ensures NatToString(2024) == "2024" && NatToString(2025) == "2025" {
    assert NatToString(20) == "20" && NatToString(202) == "202";
  }

  lemma Print20240228() ensures GetDateString(Date(2024, 2, 28)) == "2024-02-28" { Year2024(); }
  lemma Print20240229() ensures GetDateString(Date(2024, 2, 29)) == "2024-02-29" { Year2024(); }
  lemma Print20241231() ensures GetDateString(Date(2024, 12, 31)) == "2024-12-31" { Year2024(); }
  lemma Print20250101() ensures GetDateString(Date(2025, 1, 1)) == "2025-01-01" { Year2024(); }

  /** The day after 28 February of a leap year is the leap day. */
  lemma AddDaysLeapDay()
    ensures AddDays("2024-02-28", 1) == "2024-02-29"
  {
    Print20240228();
    Print20240229();
    assert Shift(Date(2024, 2, 28), 1) == Date(2024, 2, 29);
    AddDaysOn("2024-02-28", Date(2024, 2, 28), 1, "2024-02-29");
  }

  /** Moving back from the leap day crosses the month boundary. */
  lemma AddDaysBackFromLeapDay()
    ensures AddDays("2024-02-29", -1) == "2024-02-28"
  {
    Print20240228();
    Print20240229();
    assert Shift(Date(2024, 2, 29), -1) == Date(2024, 2, 28);
    AddDaysOn("2024-02-29", Date(2024, 2, 29), -1, "2024-02-28");
  }

  /** The day after 31 December is 1 January of the next year. */
  lemma AddDaysYearEnd()
    ensures AddDays("2024-12-31", 1) == "2025-01-01"
  {
    Print20241231();
    Print20250101();
    assert Shift(Date(2024, 12, 31), 1) == Date(2025, 1, 1);
    AddDaysOn("2024-12-31", Date(2024, 12, 31), 1, "2025-01-01");
  }

  lemma Unparsed20241301() ensures ParseDate("2024-13-01").None? {
    var s := "2024-13-01";
    assert s[5..7] == "13" && Value("13") == 13;
  }

  /** A month that does not exist is not a date. */
  lemma AddDaysInvalidMonth()
    ensures AddDays("2024-13-01", 1) == "NaN-NaN-NaN"
  {
    Unparsed20241301();
  }

  lemma Unparsed20230229() ensures ParseDate("2023-02-29").None? {
    var s := "2023-02-29";
    assert s[..4] == "2023" && s[5..7] == "02" && s[8..] == "29";
    FourDigitValue("2023");
    assert Value("02") == 2;
    assert !IsLeapYear(2023);
  }

  /** 29 February of a common year is not a date. */
  lemma AddDaysInvalidLeapDay()
    ensures AddDays("2023-02-29", 1) == "NaN-NaN-NaN"
  {
    Unparsed20230229();
  }

  lemma Print10000101() ensures GetDateString(Date(1000, 1, 1)) == "1000-01-01" {
    assert NatToString(1) == "1";
    assert NatToString(10) == "10";
    assert NatToString(100) == "100";
    assert IntToString(1000) == "1000";
    assert PadStart2(IntToString(1)) == "01";
  }
  lemma Print9991231() ensures GetDateString(Date(999, 12, 31)) == "999-12-31" {
    assert NatToString(99) == "99" && NatToString(999) == "999";
  }

  /** Before year 1000 the year is printed without padding, so the result
      is no longer in the form the date parser reads. */
  lemma AddDaysBelowYearOneThousand()
    ensures AddDays("1000-01-01", -1) == "999-12-31"
    ensures ParseDate(AddDays("1000-01-01", -1)).None?
  {
    Print10000101();
    Print9991231();
    assert Shift(Date(1000, 1, 1), -1) == Date(999, 12, 31);
    AddDaysOn("1000-01-01", Date(1000, 1, 1), -1, "999-12-31");
  }
}

=== FILE: clock_format.dfy ===
/** The duration codec of the desktop app: `formatTime` (always "HH:MM:SS"),
    `formatTimeHuman` ("2h 30m") and `parseTimeString` (the inverse of
    `formatTime`, with `None` for `null`). Inputs are JavaScript numbers with
    integer values; negative totals follow JavaScript's `Math.floor` and `%`. */
module ClockFormat {
  import opened Text
  import opened Optional
  import opened JsNum
  import opened DurationText

  /** `Math.floor(totalSeconds / 3600)`. */
  function Hours(totalSeconds: int): int {
    FloorDiv(totalSeconds, 3600)
  }

  /** `Math.floor((totalSeconds % 3600) / 60)`. */
  function Minutes(totalSeconds: int): int {
    FloorDiv(Rem(totalSeconds, 3600), 60)
  }

  /** `totalSeconds % 60`. */
  function Seconds(totalSeconds: int): int {
    Rem(totalSeconds, 60)
  }

  /** `n.toString().padStart(2, "0")`. */
  function Pad(n: int): string {
    PadStart2(IntToString(n))
  }

  /** A clock field holding `v`: digits only, at least two of them. */
  predicate IsField(f: string, v: nat) {
    IsNumeral(f) && |f| >= 2 && Value(f) == v
  }

  lemma PadField(v: nat)
    ensures IsField(Pad(v), v)
    ensures v < 100 ==> |Pad(v)| == 2
  {
    ValueOfNatToString(v);
    PadStart2Value(NatToString(v));
    if v < 100 {
      assert |NatToString(v)| <= 2 by {
        if v >= 10 { assert NatToString(v) == NatToString(v / 10) + [DigitChar(v % 10)]; }
      }
    }
  }

  /** `formatTime`: for a non-negative total, three colon-separated fields
      holding whole hours, the minutes within the hour and the seconds
      within the minute, each padded to two digits and no further; the hour
      field is always present. A negative total, which `adjust_task_time`
      can leave behind, prints every non-zero field with a minus sign and
      unpadded, as `Math.floor` and `%` give them (-5 prints "-1:-1:-5"). */
  function FormatTime(totalSeconds: int): (r: string)
    ensures totalSeconds >= 0 ==> ClockFieldsOf(r, totalSeconds)
    ensures totalSeconds < 0 ==> NegativeClockOf(r, -totalSeconds)
  {
    var r := ClockText(Hours(totalSeconds), Minutes(totalSeconds), Seconds(totalSeconds));
    assert totalSeconds >= 0 ==> ClockFieldsOf(r, totalSeconds) by {
      if totalSeconds >= 0 {
        FormatTimeFields(totalSeconds);
      }
    }
    assert totalSeconds < 0 ==> NegativeClockOf(r, -totalSeconds) by {
      if totalSeconds < 0 {
        NegativeFieldValues(totalSeconds, -totalSeconds);
        NegativeClockText(Hours(totalSeconds), Minutes(totalSeconds), Seconds(totalSeconds), -totalSeconds);
      }
    }
    r
  }

  /** The three fields, each padded, joined by colons. */
  function ClockText(h: int, m: int, s: int): string {
    Pad(h) + ":" + Pad(m) + ":" + Pad(s)
  }

  /** `r` is three colon-separated fields holding the hours, minutes and
      seconds of `n`. */
  predicate ClockFieldsOf(r: string, n: nat) {
    var f := Split(r, ':');
    && |f| == 3
    && IsField(f[0], n / 3600) && (|f[0]| > 2 ==> f[0][0] != '0')
    && IsField(f[1], n % 3600 / 60) && |f[1]| == 2
    && IsField(f[2], n % 60) && |f[2]| == 2
  }

  /** `r` is what a total of `-k` seconds prints: the hours rounded down,
      so `k` seconds rounded up to whole hours after a minus sign, then the
      part of `k` below an hour rounded up to whole minutes, then the
      seconds of `k` below a minute, each of the last two negated. */
  predicate NegativeClockOf(r: string, k: nat) {
    NegatedClock(r, (k + 3599) / 3600, (k % 3600 + 59) / 60, k % 60)
  }

  /** `r` is three colon-separated fields printing `-x`, `-y` and `-z`,
      the first of them non-zero. */
  predicate NegatedClock(r: string, x: nat, y: nat, z: nat) {
    var f := Split(r, ':');
    && |f| == 3
    && f[0] == "-" + NatToString(x)
    && IsNegatedField(f[1], y)
    && IsNegatedField(f[2], z)
  }

  /** A field printing `-v`: "00" for zero, otherwise the minus sign and
      the digits, which are already two characters and so unpadded. */
  predicate IsNegatedField(f: string, v: nat) {
    if v == 0 then f == "00" else f == "-" + NatToString(v)
  }

  /** `Math.floor` of a negated quotient is the negated quotient rounded
      up. */
  lemma FloorOfNegated(j: nat, d: int)
    requires d > 0
    ensures FloorDiv(-(j as int), d) == -((j + d - 1) / d)
  {
    var c := (j + d - 1) / d;
    assert c * d <= j + d - 1 < c * d + d;
    DivUnique(-(j as int), d, -c, c * d - j);
  }

  /** Padding the printed `-v`. */
  lemma PadNegated(v: nat)
    ensures IsNegatedField(Pad(-(v as int)), v)
  {
    if v == 0 {
      assert NatToString(0) == "0";
    }
  }

  /** The clock text of the fields `-x`, `-y` and `-z` of a negative
      total `-k`. */
  lemma NegativeClockText(h: int, m: int, s: int, k: nat)
    requires k > 0
    requires h == -(((k + 3599) / 3600) as int)
    requires m == -(((k % 3600 + 59) / 60) as int)
    requires s == -((k % 60) as int)
    ensures NegativeClockOf(ClockText(h, m, s), k)
  {
    PadNegated((k + 3599) / 3600);
    PadNegated((k % 3600 + 59) / 60);
    PadNegated(k % 60);
    NegatedFields(Pad(h), Pad(m), Pad(s), k);
  }

  /** The JavaScript field arithmetic on a negative total `-k`. */
  lemma NegativeFieldValues(n: int, k: nat)
    requires n == -(k as int) && k > 0
    ensures Hours(n) == -((k + 3599) / 3600) && (k + 3599) / 3600 > 0
    ensures Minutes(n) == -((k % 3600 + 59) / 60)
    ensures Seconds(n) == -(k % 60)
  {
    FloorOfNegated(k, 3600);
    FloorOfNegated(k % 3600, 60);
  }

  /** The three printed fields of `-k`, joined by colons, split back into
      those fields. */
  lemma NegatedFields(a: string, b: string, c: string, k: nat)
    requires k > 0
    requires IsNegatedField(a, (k + 3599) / 3600)
    requires IsNegatedField(b, (k % 3600 + 59) / 60)
    requires IsNegatedField(c, k % 60)
    ensures NegativeClockOf(a + ":" + b + ":" + c, k)
  {
    NegatedHasNoColon(a, (k + 3599) / 3600);
    NegatedHasNoColon(b, (k % 3600 + 59) / 60);
    NegatedHasNoColon(c, k % 60);
    ColonFree(a, b, c);
  }

  lemma NegatedHasNoColon(f: string, v: nat)
    requires IsNegatedField(f, v)
    ensures ':' !in f
  {
    NumeralHasNoSeparator(NatToString(v), ':');
    if v > 0 {
      assert f[1..] == NatToString(v);
    }
  }

  /** For a non-negative total the JavaScript field arithmetic is the
      ordinary one. */
  lemma NonNegativeFields(n: nat)
    ensures Hours(n) == n / 3600 && Minutes(n) == n % 3600 / 60 && Seconds(n) == n % 60
    ensures n % 3600 / 60 < 60
  {
  }

  lemma FormatTimeFields(n: nat)
    ensures ClockFieldsOf(Pad(Hours(n)) + ":" + Pad(Minutes(n)) + ":" + Pad(Seconds(n)), n)
  {
    NonNegativeFields(n);
    var h, m, s := n / 3600, n % 3600 / 60, n % 60;
    PadField(h);
    PadField(m);
    PadField(s);
    ThreeFields(Pad(h), Pad(m), Pad(s));
  }

  /** Splitting "a:b:c" on colons, for numerals a, b and c. */
  lemma ThreeFields(a: string, b: string, c: string)
    requires AllDigits(a) && AllDigits(b) && AllDigits(c)
    ensures Split(a + ":" + b + ":" + c, ':') == [a, b, c]
  {
    NumeralHasNoSeparator(a, ':');
    NumeralHasNoSeparator(b, ':');
    NumeralHasNoSeparator(c, ':');
    ColonFree(a, b, c);
  }

  /** Splitting "a:b:c" on colons, for colon-free a, b and c. */
  lemma ColonFree(a: string, b: string, c: string)
    requires ':' !in a && ':' !in b && ':' !in c
    ensures Split(a + ":" + b + ":" + c, ':') == [a, b, c]
  {
    assert Join([c], ':') == c;
    assert [a, b, c][1..] == [b, c] && [b, c][1..] == [c];
    assert Join([b, c], ':') == b + [':'] + c;
    assert a + ":" + b + ":" + c == Join([a, b, c], ':');
    SplitOfJoin([a, b, c], ':');
  }

  /** Splitting "a:b" on colons, for numerals a and b. */
  lemma TwoFields(a: string, b: string)
    requires AllDigits(a) && AllDigits(b)
    ensures Split(a + ":" + b, ':') == [a, b]
  {
    NumeralHasNoSeparator(a, ':');
    NumeralHasNoSeparator(b, ':');
    TwoColonFree(a, b);
  }

  /** Splitting "a:b" on colons, for colon-free a and b. */
  lemma TwoColonFree(a: string, b: string)
    requires ':' !in a && ':' !in b
    ensures Split(a + ":" + b, ':') == [a, b]
  {
    assert [a, b][1..] == [b];
    assert a + ":" + b == Join([a, b], ':');
    SplitOfJoin([a, b], ':');
  }

  /** The value of a well-formed clock reading, or `None` when the minutes
      or the seconds are out of range (hours are unbounded). */
  function Check(h: nat, m: nat, s: nat): Option<nat> {
    if m >= 60 || s >= 60 then None else Some(h * 3600 + m * 60 + s)
  }

  /** The shape `^(?:(\d+):)?(\d+):(\d+)$` asks for: two or three
      colon-separated fields, each one or more ASCII digits. */
  predicate ClockShape(t: string) {
    var f := Split(t, ':');
    (|f| == 2 || |f| == 3) && forall i :: 0 <= i < |f| ==> IsNumeral(f[i])
  }

  /** `parseTimeString`: trims the input, accepts "H:M:S" or "M:S" of
      digits, and yields the total in seconds; `None` stands for `null`. */
  function ParseTimeString(text: string): (r: Option<nat>)
    ensures IsBlank(text) ==> r.None?
    ensures r.Some? ==> ClockShape(Trim(text))
  {
    var t := Trim(text);
    if |t| == 0 then None else ReadFields(Split(t, ':'))
  }

  /** The colon-separated fields of a trimmed input: "H:M:S" or "M:S" of
      numerals, read as a total. */
  function ReadFields(f: seq<string>): (r: Option<nat>)
    ensures r.Some? ==> (|f| == 2 || |f| == 3) && forall i :: 0 <= i < |f| ==> IsNumeral(f[i])
  {
    if |f| == 3 && IsNumeral(f[0]) && IsNumeral(f[1]) && IsNumeral(f[2]) then
      Check(Value(f[0]), Value(f[1]), Value(f[2]))
    else if |f| == 2 && IsNumeral(f[0]) && IsNumeral(f[1]) then
      Check(0, Value(f[0]), Value(f[1]))
    else None
  }

  /** Once trimmed, an accepted input holds nothing but ASCII digits and
      colons. */
  lemma ParseAcceptsOnlyDigitsAndColons(text: string)
    requires ParseTimeString(text).Some?
    ensures forall i :: 0 <= i < |Trim(text)| ==> IsDigit(Trim(text)[i]) || Trim(text)[i] == ':'
  {
    var f := Split(Trim(text), ':');
    JoinOfNumerals(f, ':');
  }

  /** The input is trimmed first, so only its trimmed text matters. */
  lemma ParseTrimmed(text: string)
    ensures ParseTimeString(text) == ParseTimeString(Trim(text))
  {
    TrimIdempotent(text);
  }

  /** White space around an input, such as " 1:05:30 ", is ignored. */
  lemma ParsePadded(pre: string, t: string, post: string)
    requires IsBlank(pre) && IsBlank(post)
    requires |t| > 0 && !IsWhitespace(t[0]) && !IsWhitespace(t[|t| - 1])
    ensures ParseTimeString(pre + t + post) == ParseTimeString(t)
  {
    TrimPadded(pre, t, post);
    TrimUnpadded(t);
  }

  /** "H:M:S" is read as hours, minutes and seconds; it is rejected exactly
      when the minutes or the seconds reach 60. */
  lemma ParseHoursMinutesSeconds(h: string, m: string, s: string)
    requires IsNumeral(h) && IsNumeral(m) && IsNumeral(s)
    ensures var r := ParseTimeString(h + ":" + m + ":" + s);
      && (r.Some? <==> Value(m) < 60 && Value(s) < 60)
      && (r.Some? ==> r.value == Value(h) * 3600 + Value(m) * 60 + Value(s))
  {
    ParseThreeFieldForm(h, m, s);
  }

  lemma ParseThreeFieldForm(h: string, m: string, s: string)
    requires IsNumeral(h) && IsNumeral(m) && IsNumeral(s)
    ensures ParseTimeString(h + ":" + m + ":" + s) == Check(Value(h), Value(m), Value(s))
  {
    var t := h + ":" + m + ":" + s;
    assert t[0] == h[0] && t[|t| - 1] == s[|s| - 1];
    TrimUnpadded(t);
    ThreeFields(h, m, s);
  }

  /** "M:S" is read as minutes and seconds with no hours. */
  lemma ParseMinutesSeconds(m: string, s: string)
    requires IsNumeral(m) && IsNumeral(s)
    ensures var r := ParseTimeString(m + ":" + s);
      && (r.Some? <==> Value(m) < 60 && Value(s) < 60)
      && (r.Some? ==> r.value == Value(m) * 60 + Value(s))
  {
    ParseTwoFieldForm(m, s);
  }

  lemma ParseTwoFieldForm(m: string, s: string)
    requires IsNumeral(m) && IsNumeral(s)
    ensures ParseTimeString(m + ":" + s) == Check(0, Value(m), Value(s))
  {
    var t := m + ":" + s;
    assert t[0] == m[0] && t[|t| - 1] == s[|s| - 1];
    TrimUnpadded(t);
    TwoFields(m, s);
  }

  /** Parsing what `formatTime` prints gives back the total. */
  lemma ParseFormatTime(n: nat)
    ensures ParseTimeString(FormatTime(n)) == Some(n)
  {
    var h, m, s := n / 3600, n % 3600 / 60, n % 60;
    PadField(h);
    PadField(m);
    PadField(s);
    NonNegativeFields(n);
    assert FormatTime(n) == Pad(h) + ":" + Pad(m) + ":" + Pad(s);
    ParseThreeFieldForm(Pad(h), Pad(m), Pad(s));
    CheckOfFields(n);
  }

  /** The hours, minutes and seconds of `n` recombine to `n`. */
  lemma CheckOfFields(n: nat)
    ensures Check(n / 3600, n % 3600 / 60, n % 60) == Some(n)
  {
    Recombine(n);
  }

  lemma Recombine(n: nat)
    ensures n / 3600 * 3600 + n % 3600 / 60 * 60 + n % 60 == n
    ensures n % 3600 / 60 < 60
  {
    var a, r := n / 3600, n % 3600;
    var b, c := r / 60, r % 60;
    assert r == b * 60 + c;
    assert n == (a * 60 + b) * 60 + c;
    ModSixty(n, a * 60 + b, c);
  }

  lemma ModSixty(n: int, k: int, c: int)
    requires n == k * 60 + c && 0 <= c < 60
    ensures n % 60 == c
  {
  }

  /** `formatTimeHuman`: for a non-negative total, the compact form that
      reads back as the total rounded down to whole minutes, or as the exact
      seconds below one minute: the whole hours first when there are any,
      the minutes below the hour last exactly when there are any, no zero
      part unless the total is zero, and seconds only when the total is
      under a minute. A negative total prints as seconds. */
  function FormatTimeHuman(totalSeconds: int): (r: string)
    ensures totalSeconds >= 0 ==> HumanReadsAs(r, totalSeconds)
    ensures totalSeconds < 0 ==> r == IntToString(totalSeconds) + "s"
  {
    var r := HumanText(Hours(totalSeconds), Minutes(totalSeconds), totalSeconds);
    assert totalSeconds >= 0 ==> HumanReadsAs(r, totalSeconds) by {
      if totalSeconds >= 0 {
        NonNegativeFields(totalSeconds);
        HumanReadsBack(totalSeconds);
      }
    }
    assert totalSeconds < 0 ==> Hours(totalSeconds) <= 0 && Minutes(totalSeconds) <= 0;
    r
  }

  /** The branches of `formatTimeHuman`, given its hours and minutes. */
  function HumanText(hours: int, minutes: int, totalSeconds: int): string {
    if hours > 0 && minutes > 0 then IntToString(hours) + "h " + IntToString(minutes) + "m"
    else if hours > 0 then IntToString(hours) + "h"
    else if minutes > 0 then IntToString(minutes) + "m"
    else IntToString(totalSeconds) + "s"
  }

  /** What the human form of a non-negative total `n` promises. */
  predicate HumanReadsAs(r: string, n: nat) {
    HumanOf(r, n, n / 3600, n % 3600 / 60, n % 60)
  }

  lemma HumanReadsBack(n: nat)
    ensures HumanReadsAs(HumanText(n / 3600, n % 3600 / 60, n), n)
  {
    Recombine(n);
    HumanCases(n / 3600, n % 3600 / 60, n % 60, n);
  }

  /** What the human form `r` of a total `n` of `h` hours, `m` minutes and
      `s` seconds promises: it reads back as `n` without the seconds (all of
      `n` under a minute), in at most two parts; the hours part leads when
      `h > 0`; the last part is the minutes part exactly when `m > 0`; every
      part is a reading part and none is zero unless `n` is; it ends in "s"
      exactly under a minute, and is then the seconds part alone. */
  predicate HumanOf(r: string, n: nat, h: nat, m: nat, s: nat) {
    var parts := Split(r, ' ');
    && ReadDuration(r).Some? && ReadDuration(r).value == (if n < 60 then n else n - s)
    && |parts| <= 2
    && (h > 0 ==> parts[0] == Part(h, 'h'))
    && (m > 0 <==> parts[|parts| - 1] == Part(m, 'm'))
    && (forall i :: 0 <= i < |parts| ==> ReadPart(parts[i]).Some? && (n > 0 ==> ReadPart(parts[i]).value.0 > 0))
    && |r| > 0 && (r[|r| - 1] == 's' <==> n < 60)
    && (n < 60 ==> r == Part(n, 's'))
  }

  /** The branches of `formatTimeHuman` for a total of `h` hours, `m`
      minutes and `s` seconds. */
  lemma HumanCases(h: nat, m: nat, s: nat, n: nat)
    requires n == h * 3600 + m * 60 + s && m < 60 && s < 60
    ensures HumanOf(HumanText(h, m, n), n, h, m, s)
  {
    if h > 0 && m > 0 {
      HumanHoursMinutes(h, m, s, n);
    } else if h > 0 {
      HumanUnit(h, 'h', h, m, s, n);
      assert HumanText(h, m, n) == Part(h, 'h');
    } else if m > 0 {
      HumanUnit(m, 'm', h, m, s, n);
      assert HumanText(h, m, n) == Part(m, 'm');
    } else {
      HumanUnit(n, 's', h, m, s, n);
      assert HumanText(h, m, n) == Part(n, 's');
    }
  }

  lemma HumanHoursMinutes(h: nat, m: nat, s: nat, n: nat)
    requires n == h * 3600 + m * 60 + s && s < 60 && h > 0 && m > 0
    ensures HumanOf(HumanText(h, m, n), n, h, m, s)
  {
    var a, b := NatToString(h), NatToString(m);
    var joined := Part(h, 'h') + " " + Part(m, 'm');
    assert HumanText(h, m, n) == a + "h " + b + "m";
    assert a + "h " + b + "m" == joined by {
      assert Part(h, 'h') == a + "h" && Part(m, 'm') == b + "m";
      assert a + "h " == a + "h" + " ";
    }
    HoursAndMinutes(h, m);
    ReadPartOfPart(h, 'h');
    ReadPartOfPart(m, 'm');
    assert n - s == h * 3600 + m * 60 && n >= 60;
  }

  /** A single part: whole hours, whole minutes, or the seconds of a total
      under a minute. */
  lemma HumanUnit(v: nat, u: char, h: nat, m: nat, s: nat, n: nat)
    requires n == h * 3600 + m * 60 + s && m < 60 && s < 60
    requires u == 'h' || u == 'm' || u == 's'
    requires u == 'h' ==> v == h && h > 0 && m == 0
    requires u == 'm' ==> v == m && h == 0 && m > 0
    requires u == 's' ==> v == n && h == 0 && m == 0
    ensures HumanOf(Part(v, u), n, h, m, s)
  {
    SinglePart(v, u);
    ReadPartOfPart(v, u);
    var zero := Part(m, 'm');
    assert zero[|zero| - 1] == 'm';
  }

  lemma HoursAndMinutes(h: nat, m: nat)
    ensures var r := Part(h, 'h') + " " + Part(m, 'm');
      && ReadDuration(r).Some? && ReadDuration(r).value == h * 3600 + m * 60
      && Split(r, ' ') == [Part(h, 'h'), Part(m, 'm')]
      && r[|r| - 1] == 'm'
  {
    var parts := [Part(h, 'h'), Part(m, 'm')];
    PartHasNoSpace(h, 'h');
    PartHasNoSpace(m, 'm');
    ReadPartOfPart(h, 'h');
    ReadPartOfPart(m, 'm');
    ReadJoined(parts);
    SplitOfJoin(parts, ' ');
    assert parts[1..] == [Part(m, 'm')] && parts[1..][1..] == [];
    assert ReadParts([Part(m, 'm')], 1) == Some(m * 60);
    assert Join(parts, ' ') == Part(h, 'h') + " " + Part(m, 'm');
  }

  lemma SinglePart(v: nat, u: char)
    requires Unit(u).Some?
    ensures ReadDuration(Part(v, u)).Some? && ReadDuration(Part(v, u)).value == v * Unit(u).value.0
    ensures Split(Part(v, u), ' ') == [Part(v, u)]
    ensures Part(v, u)[|Part(v, u)| - 1] == u
  {
    PartHasNoSpace(v, u);
    ReadPartOfPart(v, u);
    ReadJoined([Part(v, u)]);
    SplitWithoutSeparator(Part(v, u), ' ');
  }
}

=== FILE: date_order.dfy ===
/** Why comparing "YYYY-MM-DD" strings as text, as SQLite does with
    `BETWEEN` and `ORDER BY`, compares the days they name: for two readable
    dates, the text order is the order on the line of days. */
module DateOrder {
  import opened Text
  import opened Ordering
  import opened Calendar

  /** Comparing two texts that share the length of their first parts: the
      first parts decide unless they are equal. */
  lemma {:induction false} StrLeConcat(p: string, q: string, x: string, y: string)
    requires |p| == |q|
    ensures StrLe(p + x, q + y) <==> (p != q && StrLe(p, q)) || (p == q && StrLe(x, y))
    decreases |p|
  {
    if |p| == 0 {
      assert p + x == x && q + y == y;
    } else {
      assert (p + x)[0] == p[0] && (p + x)[1..] == p[1..] + x;
      assert (q + y)[0] == q[0] && (q + y)[1..] == q[1..] + y;
      assert p == [p[0]] + p[1..] && q == [q[0]] + q[1..];
      StrLeConcat(p[1..], q[1..], x, y);
    }
  }

  /** Numerals of one length compare as text exactly as their values
      compare. */
  lemma {:induction false} DigitsOrder(x: string, y: string)
    requires |x| == |y| && AllDigits(x) && AllDigits(y)
    ensures StrLe(x, y) <==> Value(x) <= Value(y)
    ensures x == y <==> Value(x) == Value(y)
    decreases |x|
  {
    if |x| > 0 {
      var p, q := x[..|x| - 1], y[..|y| - 1];
      var c, d := x[|x| - 1], y[|y| - 1];
      assert x == p + [c] && y == q + [d];
      DigitsOrder(p, q);
      StrLeConcat(p, q, [c], [d]);
      assert StrLe([c], [d]) <==> c <= d by {
        assert [c][1..] == [] && [d][1..] == [];
      }
    }
  }

  /** `d` falls on or before `e`, comparing year, then month, then day. */
  predicate OnOrBefore(d: Date, e: Date) {
    d.year < e.year || (d.year == e.year && (d.month < e.month || (d.month == e.month && d.day <= e.day)))
  }

  /** The text of a readable date split at its dashes. */
  lemma DateParts(a: string)
    requires ParseDate(a).Some?
    ensures a == a[..4] + (['-'] + (a[5..7] + (['-'] + a[8..])))
    ensures |a[..4]| == 4 && |a[5..7]| == 2 && |a[8..]| == 2
    ensures AllDigits(a[..4]) && AllDigits(a[5..7]) && AllDigits(a[8..])
    ensures ParseDate(a).value == Date(Value(a[..4]), Value(a[5..7]), Value(a[8..]))
  {
  }

  /** Two readable date texts compare as the dates they name. */
  lemma TextOrderIsDateOrder(a: string, b: string)
    requires ParseDate(a).Some? && ParseDate(b).Some?
    ensures StrLe(a, b) <==> OnOrBefore(ParseDate(a).value, ParseDate(b).value)
  {
    DateParts(a);
    DateParts(b);
    var dash: string := ['-'];
    DigitsOrder(a[..4], b[..4]);
    DigitsOrder(a[5..7], b[5..7]);
    DigitsOrder(a[8..], b[8..]);
    StrLeConcat(a[..4], b[..4], dash + (a[5..7] + (dash + a[8..])), dash + (b[5..7] + (dash + b[8..])));
    StrLeConcat(dash, dash, a[5..7] + (dash + a[8..]), b[5..7] + (dash + b[8..]));
    StrLeConcat(a[5..7], b[5..7], dash + a[8..], dash + b[8..]);
    StrLeConcat(dash, dash, a[8..], b[8..]);
  }

  /** The first day of a month comes right after the last day of the one
      before. */
  lemma MonthStep(y: int, m: int)
    requires 1 <= m < 12
    ensures DaysBeforeMonth(y, m) + DaysInMonth(y, m) == DaysBeforeMonth(y, m + 1)
  {
    assert m == 1 || m == 2 || m == 3 || m == 4 || m == 5 || m == 6 || m == 7 || m == 8 || m == 9 || m == 10 || m == 11;
  }

  lemma {:induction false} MonthEnd(y: int, m: int, n: int)
    requires 1 <= m < n <= 12
    ensures DaysBeforeMonth(y, m) + DaysInMonth(y, m) <= DaysBeforeMonth(y, n)
    decreases n - m
  {
    if n > m + 1 {
      MonthEnd(y, m, n - 1);
      MonthStep(y, n - 1);
    } else {
      MonthStep(y, m);
    }
  }

  /** The last day of a year is the year's length minus one past its
      start. */
  lemma YearEnd(y: int, m: int)
    requires 1 <= m <= 12
    ensures 0 <= DaysBeforeMonth(y, m)
    ensures DaysBeforeMonth(y, m) + DaysInMonth(y, m) <= DaysBeforeYear(y + 1) - DaysBeforeYear(y)
  {
    YearLength(y);
    if m < 12 {
      MonthEnd(y, m, 12);
    }
    assert DaysBeforeMonth(y, 1) == 0;
    if m > 1 {
      MonthEnd(y, 1, m);
    }
  }

  lemma {:induction false} YearsAhead(a: int, b: int)
    requires a < b
    ensures DaysBeforeYear(a + 1) <= DaysBeforeYear(b)
    decreases b - a
  {
    if b > a + 1 {
      YearsAhead(a, b - 1);
      YearLength(b - 1);
    }
  }

  /** A date strictly before another has a smaller day number. */
  lemma DayNumberIncreases(d: Date, e: Date)
    requires Valid(d) && Valid(e) && OnOrBefore(d, e) && d != e
    ensures DayNumber(d) < DayNumber(e)
  {
    YearEnd(d.year, d.month);
    YearEnd(e.year, e.month);
    if d.year < e.year {
      YearsAhead(d.year, e.year);
    } else if d.month < e.month {
      MonthEnd(d.year, d.month, e.month);
    }
  }

  /** The calendar order of two dates is the order of their day numbers. */
  lemma OnOrBeforeIsDayNumberOrder(d: Date, e: Date)
    requires Valid(d) && Valid(e)
    ensures OnOrBefore(d, e) <==> DayNumber(d) <= DayNumber(e)
  {
    if d != e {
      if OnOrBefore(d, e) {
        DayNumberIncreases(d, e);
      } else {
        DayNumberIncreases(e, d);
      }
    }
  }

  /** Two readable date texts compare as text exactly as their day numbers
      compare. */
  lemma TextOrderIsDayOrder(a: string, b: string)
    requires ParseDate(a).Some? && ParseDate(b).Some?
    ensures StrLe(a, b) <==> DayNumber(ParseDate(a).value) <= DayNumber(ParseDate(b).value)
  {
    TextOrderIsDateOrder(a, b);
    OnOrBeforeIsDayNumberOrder(ParseDate(a).value, ParseDate(b).value);
  }
}

=== FILE: duration_text.dfy ===
/** A reader for the compact duration strings the formatters print, such as
    "2h 30m", "45s" or "1h 0m 5s": parts separated by single spaces, each an
    unpadded numeral followed by a unit letter, units in the order h, m, s and
    none repeated. It is the reference against which the human-readable
    formatters are stated. */
module DurationText {
  import opened Text
  import opened Optional

  /** Seconds per unit and the unit's rank in the order h < m < s. */
  function Unit(u: char): Option<(nat, nat)> {
    if u == 'h' then Some((3600, 0))
    else if u == 'm' then Some((60, 1))
    else if u == 's' then Some((1, 2))
    else None
  }

  /** One part, e.g. "30m", as (seconds it denotes, rank of its unit). */
  function ReadPart(p: string): Option<(nat, nat)> {
    if |p| < 2 || !IsCanonicalNumeral(p[..|p| - 1]) then None
    else match Unit(p[|p| - 1])
      case None => None
      case Some((scale, rank)) => Some((Value(p[..|p| - 1]) * scale, rank))
  }

  /** The total of the parts, provided their units come in strictly
      increasing rank, starting no lower than `minRank`. */
  function ReadParts(parts: seq<string>, minRank: nat): Option<nat> {
    if |parts| == 0 then Some(0)
    else match ReadPart(parts[0])
      case None => None
      case Some((secs, rank)) =>
        if rank < minRank then None
        else match ReadParts(parts[1..], rank + 1)
          case None => None
          case Some(rest) => Some(secs + rest)
  }

  /** The number of seconds a duration string denotes, or `None` when it is
      not in the compact form. */
  function ReadDuration(s: string): Option<nat> {
    ReadParts(Split(s, ' '), 0)
  }

  /** The part printed for `v` units of `u`, e.g. `Part(30, 'm') == "30m"`. */
  function Part(v: nat, u: char): string {
    NatToString(v) + [u]
  }

  lemma ReadPartOfPart(v: nat, u: char)
    requires Unit(u).Some?
    ensures ReadPart(Part(v, u)) == Some((v * Unit(u).value.0, Unit(u).value.1))
  {
    var p := Part(v, u);
    assert p[..|p| - 1] == NatToString(v);
    ValueOfNatToString(v);
  }

  lemma PartHasNoSpace(v: nat, u: char)
    requires u != ' '
    ensures ' ' !in Part(v, u)
  {
    NumeralHasNoSeparator(NatToString(v), ' ');
  }

  /** Reading parts joined by spaces is reading the parts. */
  lemma ReadJoined(parts: seq<string>)
    requires |parts| > 0
    requires forall i :: 0 <= i < |parts| ==> ' ' !in parts[i]
    ensures ReadDuration(Join(parts, ' ')) == ReadParts(parts, 0)
  {
    SplitOfJoin(parts, ' ');
  }
}

=== FILE: js_num.dfy ===
/** The few JavaScript number operations the source relies on, on integers:
    `Math.floor(a / b)`, the remainder operator `%` (which takes the sign of
    the dividend), `String(n)` and `parseInt(s, 10)`. */
module JsNum {
  import opened Text
  import opened Optional

  /** `Math.floor(a / b)` for a positive divisor. */
  function FloorDiv(a: int, b: int): (q: int)
    requires b > 0
    ensures q * b <= a < q * b + b
  {
    a / b
  }

  /** JavaScript's `a % b` for a positive divisor: truncating division, so
      the remainder has the sign of `a`. */
  function Rem(a: int, b: int): (r: int)
    requires b > 0
    ensures a >= 0 ==> 0 <= r < b && r == a % b
    ensures a < 0 ==> -b < r <= 0 && r == -((-a) % b)
  {
    if a >= 0 then a % b else -((-a) % b)
  }

  /** `String(n)` for an integer. */
  function IntToString(n: int): (r: string)
    ensures n >= 0 ==> r == NatToString(n)
    ensures n < 0 ==> |r| > 1 && r[0] == '-' && r[1..] == NatToString(-n)
  {
    if n < 0 then "-" + NatToString(-n) else NatToString(n)
  }

  /** The longest prefix of `s` made of digits. */
  function DigitPrefix(s: string): (r: string)
    ensures |r| <= |s| && AllDigits(r) && r == s[..|r|]
    ensures |r| < |s| ==> !IsDigit(s[|r|])
  {
    if |s| > 0 && IsDigit(s[0]) then
      var rest := DigitPrefix(s[1..]);
      assert [s[0]] + rest == s[..|rest| + 1];
      [s[0]] + rest
    else ""
  }

  /** `parseInt(s, 10)` on an integer-valued string: leading white space is
      skipped, one sign is allowed, then the longest run of digits is read;
      `None` stands for `NaN` (no digit at all). */
  function ParseInt(s: string): (r: Option<int>)
    ensures r.None? <==> |DigitPrefix(SignFree(TrimStart(s)))| == 0
  {
    var t := TrimStart(s);
    var digits := DigitPrefix(SignFree(t));
    var v: int := Value(digits);
    if |digits| == 0 then None
    else if |t| > 0 && t[0] == '-' then Some(-v)
    else Some(v)
  }

  /** The string after one optional leading `+` or `-`. */
  function SignFree(t: string): (r: string)
    ensures r == t || (|t| > 0 && (t[0] == '+' || t[0] == '-') && r == t[1..])
  {
    if |t| > 0 && (t[0] == '+' || t[0] == '-') then t[1..] else t
  }

  /** A digit string is its own digit prefix. */
  lemma {:induction false} DigitPrefixOfDigits(s: string)
    requires AllDigits(s)
    ensures DigitPrefix(s) == s
  {
    if |s| > 0 {
      DigitPrefixOfDigits(s[1..]);
    }
  }

  /** `parseInt(String(n), 10) == n` for every integer `n`: what is written
      back by `String` is read back exactly. */
  lemma ParseIntOfIntToString(n: int)
    ensures ParseInt(IntToString(n)) == Some(n)
  {
    var s := IntToString(n);
    var m := if n < 0 then -n else n;
    var digits := NatToString(m);
    ValueOfNatToString(m);
    DigitPrefixOfDigits(digits);
    assert TrimStart(s) == s by {
      assert !IsWhitespace(s[0]);
    }
    if n < 0 {
      assert SignFree(s) == digits;
    } else {
      assert SignFree(s) == digits;
    }
  }

  /** Euclidean division is determined by a quotient and an in-range
      remainder. */
  lemma DivUnique(n: int, c: int, q: int, r: int)
    requires c > 0 && n == c * q + r && 0 <= r < c
    ensures n / c == q
  {
    var q', r' := n / c, n % c;
    assert n == c * q' + r';
    if q' > q {
      assert c * q' >= c * (q + 1) by { MulMonotone(c, q + 1, q'); }
    } else if q' < q {
      assert c * q >= c * (q' + 1) by { MulMonotone(c, q' + 1, q); }
    }
  }

  lemma MulMonotone(c: int, a: int, b: int)
    requires c > 0 && a <= b
    ensures c * a <= c * b
  {
    assert c * b - c * a == c * (b - a);
  }
}

=== FILE: keyboard.dfy ===
/** The global keyboard shortcuts of
    tauri-app/src/lib/hooks/keyboard.svelte.ts: a list of handlers kept by
    id, the keydown dispatch over it, and the listener's init and cleanup.
    A handler is of type `H`; what it answers for the event at hand is the
    `handles` argument. */
module Keyboard {

  datatype Shortcut<H> = Shortcut(id: string, handler: H)

  /** `findIndex((s) => s.id === id)`: the first position holding `id`, or
      -1. */
  function FindIndex<H>(shortcuts: seq<Shortcut<H>>, id: string): (r: int)
    ensures -1 <= r < |shortcuts|
    ensures r >= 0 ==> shortcuts[r].id == id && forall i :: 0 <= i < r ==> shortcuts[i].id != id
    ensures r == -1 ==> forall i :: 0 <= i < |shortcuts| ==> shortcuts[i].id != id
  {
    if |shortcuts| == 0 then -1
    else if shortcuts[0].id == id then 0
    else
      var rest := FindIndex(shortcuts[1..], id);
      if rest == -1 then -1 else rest + 1
  }

  /** `splice(findIndex(…), 1)` when the index is not -1. */
  function RemoveFirst<H>(shortcuts: seq<Shortcut<H>>, id: string): (r: seq<Shortcut<H>>)
  {
    var i := FindIndex(shortcuts, id);
    if i == -1 then shortcuts else shortcuts[..i] + shortcuts[i + 1..]
  }

  /** The list without any entry for `id`, in the same order. */
  function Without<H>(shortcuts: seq<Shortcut<H>>, id: string): (r: seq<Shortcut<H>>)
    ensures forall i :: 0 <= i < |r| ==> r[i].id != id
    ensures |r| <= |shortcuts|
  {
    if |shortcuts| == 0 then []
    else if shortcuts[0].id == id then Without(shortcuts[1..], id)
    else [shortcuts[0]] + Without(shortcuts[1..], id)
  }

  /** No two entries share an id. */
  predicate UniqueIds<H>(shortcuts: seq<Shortcut<H>>) {
    forall i, j :: 0 <= i < j < |shortcuts| ==> shortcuts[i].id != shortcuts[j].id
  }

  /** With unique ids, removing the first entry for `id` removes every entry
      for it and keeps the others in order. */
  lemma {:induction false} RemoveFirstIsWithout<H>(shortcuts: seq<Shortcut<H>>, id: string)
    requires UniqueIds(shortcuts)
    ensures RemoveFirst(shortcuts, id) == Without(shortcuts, id)
    decreases |shortcuts|
  {
    if |shortcuts| > 0 {
      var rest := shortcuts[1..];
      if shortcuts[0].id == id {
        assert forall i :: 0 <= i < |rest| ==> rest[i].id != id by {
          forall i | 0 <= i < |rest|
            ensures rest[i].id != id
          {
            assert shortcuts[0].id != shortcuts[i + 1].id;
          }
        }
        WithoutAbsent(rest, id);
      } else {
        RemoveFirstIsWithout(rest, id);
        RemoveFirstPast(shortcuts, id);
      }
    }
  }

  /** Past a first entry with another id, `RemoveFirst` works on the tail. */
  lemma RemoveFirstPast<H>(shortcuts: seq<Shortcut<H>>, id: string)
    requires |shortcuts| > 0 && shortcuts[0].id != id
    ensures RemoveFirst(shortcuts, id) == [shortcuts[0]] + RemoveFirst(shortcuts[1..], id)
  {
    var rest := shortcuts[1..];
    var i := FindIndex(shortcuts, id);
    if i != -1 {
      assert FindIndex(rest, id) == i - 1;
      assert shortcuts[..i] + shortcuts[i + 1..] == [shortcuts[0]] + (rest[..i - 1] + rest[i..]);
    }
  }

  lemma {:induction false} WithoutAbsent<H>(shortcuts: seq<Shortcut<H>>, id: string)
    requires forall i :: 0 <= i < |shortcuts| ==> shortcuts[i].id != id
    ensures Without(shortcuts, id) == shortcuts
    decreases |shortcuts|
  {
    if |shortcuts| > 0 {
      WithoutAbsent(shortcuts[1..], id);
    }
  }

  /** `Without` keeps exactly the entries whose id differs. */
  lemma {:induction false} WithoutMembers<H>(shortcuts: seq<Shortcut<H>>, id: string)
    ensures forall x :: x in Without(shortcuts, id) <==> x in shortcuts && x.id != id
    ensures forall j :: 0 <= j < |Without(shortcuts, id)| ==> Without(shortcuts, id)[j] in shortcuts
    decreases |shortcuts|
  {
    if |shortcuts| > 0 {
      WithoutMembers(shortcuts[1..], id);
      assert shortcuts == [shortcuts[0]] + shortcuts[1..];
    }
  }

  /** An entry whose id none of a unique list carries can lead it. */
  lemma UniqueCons<H>(x: Shortcut<H>, w: seq<Shortcut<H>>)
    requires UniqueIds(w)
    requires forall j :: 0 <= j < |w| ==> w[j].id != x.id
    ensures UniqueIds([x] + w)
  {
    var r := [x] + w;
    forall i, j | 0 <= i < j < |r|
      ensures r[i].id != r[j].id
    {
      assert r[j] == w[j - 1];
      if i > 0 {
        assert r[i] == w[i - 1];
      }
    }
  }

  /** Every entry of `Without` comes from the list, and ids stay unique. */
  lemma {:induction false} WithoutSubsequence<H>(shortcuts: seq<Shortcut<H>>, id: string)
    requires UniqueIds(shortcuts)
    ensures UniqueIds(Without(shortcuts, id))
    ensures forall x :: x in Without(shortcuts, id) <==> x in shortcuts && x.id != id
    decreases |shortcuts|
  {
    WithoutMembers(shortcuts, id);
    if |shortcuts| > 0 {
      var rest := shortcuts[1..];
      assert UniqueIds(rest);
      WithoutSubsequence(rest, id);
      if shortcuts[0].id != id {
        var w := Without(rest, id);
        WithoutMembers(rest, id);
        forall j | 0 <= j < |w|
          ensures w[j].id != shortcuts[0].id
        {
          assert w[j] in rest;
          var k :| 0 <= k < |rest| && rest[k] == w[j];
          assert shortcuts[k + 1] == rest[k];
          assert shortcuts[0].id != shortcuts[k + 1].id;
        }
        UniqueCons(shortcuts[0], w);
      }
    }
  }

  /** `register(id, handler)`: any entry for `id` is removed, then the new
      one is appended. */
  function Register<H>(shortcuts: seq<Shortcut<H>>, id: string, handler: H): (r: seq<Shortcut<H>>)
    requires UniqueIds(shortcuts)
    ensures UniqueIds(r)
    ensures |r| > 0 && r[|r| - 1] == Shortcut(id, handler)
    ensures forall i :: 0 <= i < |r| - 1 ==> r[i].id != id
    ensures r[..|r| - 1] == Without(shortcuts, id)
  {
    RemoveFirstIsWithout(shortcuts, id);
    WithoutSubsequence(shortcuts, id);
    var r := RemoveFirst(shortcuts, id) + [Shortcut(id, handler)];
    assert r[..|r| - 1] == Without(shortcuts, id);
    r
  }

  /** The function `register` returns: whatever entry carries `id` now is
      removed; nothing happens when there is none. */
  function Unregister<H>(shortcuts: seq<Shortcut<H>>, id: string): (r: seq<Shortcut<H>>)
    requires UniqueIds(shortcuts)
    ensures UniqueIds(r)
    ensures r == Without(shortcuts, id)
    ensures (forall i :: 0 <= i < |shortcuts| ==> shortcuts[i].id != id) ==> r == shortcuts
  {
    RemoveFirstIsWithout(shortcuts, id);
    WithoutSubsequence(shortcuts, id);
    if forall i :: 0 <= i < |shortcuts| ==> shortcuts[i].id != id then
      WithoutAbsent(shortcuts, id);
      RemoveFirst(shortcuts, id)
    else RemoveFirst(shortcuts, id)
  }

  /** Registering twice under one id leaves one entry, the latest. */
  lemma RegisterReplaces<H>(shortcuts: seq<Shortcut<H>>, id: string, first: H, second: H)
    requires UniqueIds(shortcuts)
    ensures Register(Register(shortcuts, id, first), id, second) == Register(shortcuts, id, second)
  {
    var once := Register(shortcuts, id, first);
    var w := Without(shortcuts, id);
    assert once == w + [Shortcut(id, first)];
    WithoutAbsent(w, id);
    WithoutAppend(w, Shortcut(id, first), id);
  }

  lemma {:induction false} WithoutAppend<H>(shortcuts: seq<Shortcut<H>>, x: Shortcut<H>, id: string)
    requires x.id == id
    ensures Without(shortcuts + [x], id) == Without(shortcuts, id)
    decreases |shortcuts|
  {
    if |shortcuts| == 0 {
      assert shortcuts + [x] == [x];
    } else {
      assert (shortcuts + [x])[1..] == shortcuts[1..] + [x];
      WithoutAppend(shortcuts[1..], x, id);
    }
  }

  /** Unregistering right after registering removes the registration and
      any earlier one under the same id. */
  lemma UnregisterAfterRegister<H>(shortcuts: seq<Shortcut<H>>, id: string, handler: H)
    requires UniqueIds(shortcuts)
    ensures Unregister(Register(shortcuts, id, handler), id) == Without(shortcuts, id)
  {
    var w := Without(shortcuts, id);
    assert Register(shortcuts, id, handler) == w + [Shortcut(id, handler)];
    WithoutAppend(w, Shortcut(id, handler), id);
    WithoutAbsent(w, id);
  }

  /** The outcome of a keydown event. */
  datatype Outcome = CloseWindow | HandledBy(index: nat) | NotHandled

  /** The registered handlers are called in list order until one answers
      truthy; `called` is how many were invoked. */
  method Dispatch<H>(shortcuts: seq<Shortcut<H>>, handles: H -> bool) returns (outcome: Outcome, called: nat)
    ensures called <= |shortcuts|
    ensures forall i :: 0 <= i < called && !(outcome.HandledBy? && i == outcome.index) ==> !handles(shortcuts[i].handler)
    ensures outcome.HandledBy? ==> outcome.index == called - 1 && handles(shortcuts[outcome.index].handler)
    ensures outcome.NotHandled? ==> called == |shortcuts|
    ensures !outcome.CloseWindow?
  {
    var i := 0;
    while i < |shortcuts|
      invariant 0 <= i <= |shortcuts|
      invariant forall j :: 0 <= j < i ==> !handles(shortcuts[j].handler)
    {
      if handles(shortcuts[i].handler) {
        return HandledBy(i), i + 1;
      }
      i := i + 1;
    }
    return NotHandled, i;
  }

  /** `handleKeydown`: Cmd (on a Mac) or Ctrl, with "w" or "q", closes the
      window without consulting any handler; any other key goes to the
      handlers. */
  method HandleKeydown<H>(shortcuts: seq<Shortcut<H>>, isMac: bool, metaKey: bool, ctrlKey: bool, key: string,
                          handles: H -> bool) returns (outcome: Outcome, called: nat)
    ensures outcome.CloseWindow? <==> (if isMac then metaKey else ctrlKey) && (key == "w" || key == "q")
    ensures called <= |shortcuts|
    ensures outcome.CloseWindow? ==> called == 0
    ensures outcome.HandledBy? ==> outcome.index == called - 1 && handles(shortcuts[outcome.index].handler)
    ensures outcome.HandledBy? ==> forall i :: 0 <= i < outcome.index ==> !handles(shortcuts[i].handler)
    ensures outcome.NotHandled? ==> called == |shortcuts| && forall i :: 0 <= i < |shortcuts| ==> !handles(shortcuts[i].handler)
  {
    var modKey := if isMac then metaKey else ctrlKey;
    if modKey && (key == "w" || key == "q") {
      return CloseWindow, 0;
    }
    outcome, called := Dispatch(shortcuts, handles);
  }

  /** The `isInitialized` flag, and whether the keydown listener is on the
      window. */
  datatype Listener = Listener(initialized: bool, attached: bool)

  /** `init`: attaches the listener unless already initialized. */
  function Init(l: Listener): (r: Listener)
    ensures r.initialized
    ensures l.initialized ==> r == l
    ensures !l.initialized ==> r.attached
  {
    if l.initialized then l else Listener(true, true)
  }

  /** `cleanup`: detaches the listener, only if initialized. */
  function Cleanup(l: Listener): (r: Listener)
    ensures !r.initialized
    ensures !l.initialized ==> r == l
    ensures l.initialized ==> !r.attached
  {
    if !l.initialized then l else Listener(false, false)
  }

  /** A second `init` changes nothing, `cleanup` before `init` changes
      nothing, and `init` after `cleanup` attaches the listener again. */
  lemma InitCleanupCycle(l: Listener)
    ensures Init(Init(l)) == Init(l)
    ensures Cleanup(Cleanup(l)) == Cleanup(l)
    ensures Init(Cleanup(Init(l))).attached
  {
  }
}

=== FILE: legacy_clock_format.dfy ===
/** The duration codec of the first, browser-only version of the app. Its
    `formatTime` leaves out the hour field when there are no whole hours;
    its `formatTimeHuman` is the same function as the desktop one. */
module LegacyClockFormat {
  import opened Text
  import opened Optional
  import opened JsNum
  import ClockFormat

  /** `formatTime`: "MM:SS" under one hour, otherwise the desktop
      "HH:MM:SS" form. A negative total has negative hours, so it always
      takes the short form, with the minutes and seconds negated and
      unpadded (-5 and -3605 both print "-1:-5"). */
  function FormatTime(totalSeconds: int): (r: string)
    ensures totalSeconds >= 3600 ==> r == ClockFormat.FormatTime(totalSeconds)
    ensures 0 <= totalSeconds < 3600 ==> MinuteFieldsOf(r, totalSeconds)
    ensures totalSeconds < 0 ==> NegativeMinuteFieldsOf(r, -totalSeconds)
  {
    var hours := ClockFormat.Hours(totalSeconds);
    var minutes := ClockFormat.Minutes(totalSeconds);
    var seconds := ClockFormat.Seconds(totalSeconds);
    var r :=
      if hours > 0 then ClockFormat.Pad(hours) + ":" + ClockFormat.Pad(minutes) + ":" + ClockFormat.Pad(seconds)
      else ClockFormat.Pad(minutes) + ":" + ClockFormat.Pad(seconds);
    assert 0 <= totalSeconds < 3600 ==> MinuteFieldsOf(r, totalSeconds) by {
      if 0 <= totalSeconds < 3600 {
        ShortForm(totalSeconds);
      }
    }
    assert totalSeconds < 0 ==> NegativeMinuteFieldsOf(r, -totalSeconds) by {
      if totalSeconds < 0 {
        ClockFormat.NegativeFieldValues(totalSeconds, -totalSeconds);
        NegativeShortText(minutes, seconds, -totalSeconds);
      }
    }
    r
  }

  /** `r` is what a total of `-k` seconds prints: two colon-separated
      fields, the part of `k` below an hour rounded up to whole minutes and
      the seconds of `k` below a minute, each negated. */
  predicate NegativeMinuteFieldsOf(r: string, k: nat) {
    var f := Split(r, ':');
    && |f| == 2
    && ClockFormat.IsNegatedField(f[0], (k % 3600 + 59) / 60)
    && ClockFormat.IsNegatedField(f[1], k % 60)
  }

  /** The short text of the fields `-y` and `-z` of a negative total
      `-k`. */
  lemma NegativeShortText(m: int, s: int, k: nat)
    requires k > 0
    requires m == -(((k % 3600 + 59) / 60) as int)
    requires s == -((k % 60) as int)
    ensures NegativeMinuteFieldsOf(ClockFormat.Pad(m) + ":" + ClockFormat.Pad(s), k)
  {
    var y, z := (k % 3600 + 59) / 60, k % 60;
    ClockFormat.PadNegated(y);
    ClockFormat.PadNegated(z);
    ClockFormat.NegatedHasNoColon(ClockFormat.Pad(m), y);
    ClockFormat.NegatedHasNoColon(ClockFormat.Pad(s), z);
    ClockFormat.TwoColonFree(ClockFormat.Pad(m), ClockFormat.Pad(s));
  }

  /** `r` is two colon-separated two-digit fields holding the minutes and
      the seconds of `n`. */
  predicate MinuteFieldsOf(r: string, n: nat) {
    var f := Split(r, ':');
    && |f| == 2
    && ClockFormat.IsField(f[0], n / 60) && |f[0]| == 2
    && ClockFormat.IsField(f[1], n % 60) && |f[1]| == 2
  }

  lemma ShortForm(n: nat)
    requires n < 3600
    ensures ClockFormat.Hours(n) == 0
    ensures MinuteFieldsOf(ClockFormat.Pad(ClockFormat.Minutes(n)) + ":" + ClockFormat.Pad(ClockFormat.Seconds(n)), n)
  {
    ClockFormat.NonNegativeFields(n);
    var m, s := n / 60, n % 60;
    assert ClockFormat.Minutes(n) == m;
    ClockFormat.PadField(m);
    ClockFormat.PadField(s);
    ClockFormat.TwoFields(ClockFormat.Pad(m), ClockFormat.Pad(s));
  }

  /** Totals a whole hour apart below zero print alike: -5 and -3605 both
      print "-1:-5". */
  lemma NegativeTotalsPrintShort(totalSeconds: int)
    requires totalSeconds == -5 || totalSeconds == -3605
    ensures FormatTime(totalSeconds) == "-1:-5"
  {
    NegativeOneFive(FormatTime(totalSeconds), -totalSeconds);
  }

  lemma NegativeOneFive(r: string, k: nat)
    requires k % 3600 == 5 && NegativeMinuteFieldsOf(r, k)
    ensures r == "-1:-5"
  {
    var f := Split(r, ':');
    assert NatToString(1) == "1" && NatToString(5) == "5";
    assert f[0] == "-1" && f[1] == "-5";
    assert f[1..] == [f[1]];
    assert r == Join(f, ':') == f[0] + [':'] + f[1];
  }

  /** The desktop parser reads back both forms this `formatTime` prints. */
  lemma ParseFormatTime(n: nat)
    ensures ClockFormat.ParseTimeString(FormatTime(n)) == Some(n)
  {
    if n >= 3600 {
      ClockFormat.ParseFormatTime(n);
    } else {
      ParseShortForm(n);
    }
  }

  lemma ParseShortForm(n: nat)
    requires n < 3600
    ensures var r := ClockFormat.ParseTimeString(FormatTime(n));
      r.Some? && r.value == n
  {
    var m, s := ShortFields(n);
    ClockFormat.PadField(m);
    ClockFormat.PadField(s);
    assert FormatTime(n) == ClockFormat.Pad(m) + ":" + ClockFormat.Pad(s);
    ClockFormat.ParseMinutesSeconds(ClockFormat.Pad(m), ClockFormat.Pad(s));
  }

  /** Under one hour there are no whole hours, and the minutes and seconds
      make up the total. */
  lemma ShortFields(n: nat) returns (m: nat, s: nat)
    requires n < 3600
    ensures ClockFormat.Hours(n) == 0 && ClockFormat.Minutes(n) == m && ClockFormat.Seconds(n) == s
    ensures m < 60 && s < 60 && m * 60 + s == n
  {
    ClockFormat.NonNegativeFields(n);
    m, s := n / 60, n % 60;
  }

  /** `formatTimeHuman`, which behaves exactly as the desktop one. */
  function FormatTimeHuman(totalSeconds: int): (r: string)
    ensures r == ClockFormat.FormatTimeHuman(totalSeconds)
  {
    var hours := ClockFormat.Hours(totalSeconds);
    var minutes := ClockFormat.Minutes(totalSeconds);
    if hours > 0 && minutes > 0 then IntToString(hours) + "h " + IntToString(minutes) + "m"
    else if hours > 0 then IntToString(hours) + "h"
    else if minutes > 0 then IntToString(minutes) + "m"
    else IntToString(totalSeconds) + "s"
  }
}

=== FILE: legacy_session.dfy ===
/** The timer of `createTrackingContext` (src/lib/tracking.svelte.ts), the
    same state machine as the Tauri hook, wired to the older task table of
    src/lib/tasks.ts. */
module LegacySession {
  import opened Optional
  import Tracking
  import LegacyTaskStore

  datatype Session = Session(tracker: Tracking.Tracker<LegacyTaskStore.Task>, store: LegacyTaskStore.Store)

  predicate Valid(s: Session) {
    LegacyTaskStore.Valid(s.store) && Tracking.Consistent(s.tracker)
  }

  /** `startTracking`: the table is untouched; the same task (by id) leaves
      everything as it was, any other task starts a fresh count now. */
  function Start(s: Session, task: LegacyTaskStore.Task, now: int): (r: Session)
    requires Valid(s)
    ensures Valid(r) && r.store == s.store
    ensures Tracking.IsTracking(r.tracker) && r.tracker.current.value.id == task.id
    ensures s.tracker.current.Some? && s.tracker.current.value.id == task.id ==> r == s
    ensures !(s.tracker.current.Some? && s.tracker.current.value.id == task.id) ==>
      r.tracker == Tracking.Tracker(Some(task), 0, Some(now), Some(Tracking.Running))
  {
    s.(tracker := Tracking.Start(s.tracker, task, LegacyTaskStore.TaskId, now))
  }

  /** A tick of the interval: the table and the task are untouched; while
      the interval runs with a truthy start the count becomes the whole
      seconds since the start, and otherwise nothing changes. */
  function Tick(s: Session, now: int): (r: Session)
    requires Valid(s)
    ensures Valid(r) && r.store == s.store && r.tracker.current == s.tracker.current
    ensures s.tracker.interval == Some(Tracking.Running) && s.tracker.start.Some? && s.tracker.start.value != 0 ==>
      r.tracker.elapsed * 1000 <= now - s.tracker.start.value < r.tracker.elapsed * 1000 + 1000
    ensures !(s.tracker.interval == Some(Tracking.Running) && s.tracker.start.Some? && s.tracker.start.value != 0) ==>
      r == s
  {
    s.(tracker := Tracking.Tick(s.tracker, now))
  }

  /** `stopTracking` and the `addTimeToTask` it awaits. */
  function Stop(s: Session): (r: Session)
    requires Valid(s)
    ensures Valid(r) && !Tracking.IsTracking(r.tracker)
    ensures s.tracker.current.None? ==> r == s
    ensures forall k :: (s.tracker.current.None? || k != s.tracker.current.value.id) ==>
      LegacyTaskStore.Get(r.store, k) == LegacyTaskStore.Get(s.store, k)
    ensures s.tracker.current.Some? && s.tracker.elapsed > 0 ==>
      r.store == LegacyTaskStore.AddTimeToTask(s.store, s.tracker.current.value.id, s.tracker.elapsed)
    ensures s.tracker.elapsed <= 0 ==> r.store == s.store
  {
    var (idle, flush) := Tracking.Stop(s.tracker, LegacyTaskStore.TaskId);
    match flush
    case None => Session(idle, s.store)
    case Some(AddTime(taskId, seconds)) => Session(idle, LegacyTaskStore.AddTimeToTask(s.store, taskId, seconds))
  }

  /** Start, a tick and a stop add the whole seconds between the start and
      the tick to the started task only. */
  lemma StartTickStop(s: Session, task: LegacyTaskStore.Task, startAt: int, tickAt: int)
    requires Valid(s) && !Tracking.IsTracking(s.tracker)
    requires LegacyTaskStore.Stored(s.store, task)
    requires startAt != 0 && tickAt >= startAt
    ensures var r := Stop(Tick(Start(s, task, startAt), tickAt));
      && LegacyTaskStore.Get(r.store, task.id) == Some(task.(totalSeconds := task.totalSeconds + (tickAt - startAt) / 1000))
      && forall k :: k != task.id ==> LegacyTaskStore.Get(r.store, k) == LegacyTaskStore.Get(s.store, k)
  {
    var t := Tick(Start(s, task, startAt), tickAt);
    assert t.tracker.elapsed == (tickAt - startAt) / 1000;
    assert LegacyTaskStore.Get(s.store, task.id) == Some(task);
  }

  /** Switching tasks discards the first task's ticked time without a save. */
  lemma SwitchLosesTime(s: Session, other: LegacyTaskStore.Task, now: int)
    requires Valid(s) && Tracking.IsTracking(s.tracker)
    requires s.tracker.current.value.id != other.id
    ensures Stop(Start(s, other, now)).store == s.store
  {
  }
}

=== FILE: legacy_task_store.dfy ===
/** The older task functions of `src/lib/tasks.ts`, which keep each task's
    day in a `date` column of their own, as operations on a map from task id
    to row. The day of "today" and the database's creation timestamp are
    arguments. */
module LegacyTaskStore {
  import opened Optional
  import Table
  import Ordering
  import Calendar
  import DateOrder

  /** A row of the older `tasks` table. */
  datatype Task = Task(id: int, name: string, date: string, totalSeconds: int, createdAt: string)

  datatype Store = Store(rows: map<int, Task>, nextId: int)

  function TaskId(t: Task): int { t.id }

  /** `ORDER BY created_at DESC`. */
  function CreatedKey(t: Task): seq<string> { [t.createdAt] }

  /** `ORDER BY date DESC, created_at DESC`. */
  function DateCreatedKey(t: Task): seq<string> { [t.date, t.createdAt] }

  predicate Valid(s: Store) {
    && s.nextId >= 1
    && Table.Keyed(s.rows, TaskId)
    && forall k :: k in s.rows ==> 1 <= k < s.nextId
  }

  predicate Stored(s: Store, t: Task) {
    Table.Stored(s.rows, TaskId, t)
  }

  /** The row with that id, as `SELECT * FROM tasks WHERE id = ?` finds it. */
  function Get(s: Store, id: int): (r: Option<Task>)
    requires Valid(s)
    ensures r.Some? ==> r.value.id == id && Stored(s, r.value)
    ensures r.None? ==> forall t :: Stored(s, t) ==> t.id != id
  {
    if id in s.rows then Some(s.rows[id]) else None
  }

  /** `createTask`: a new row for `today` with no time on it, under a fresh
      id; `createdAt` is the database's default timestamp. */
  function CreateTask(s: Store, name: string, today: string, createdAt: string): (r: (Store, Task))
    requires Valid(s)
    ensures Valid(r.0)
    ensures Get(s, r.1.id).None? && Get(r.0, r.1.id) == Some(r.1)
    ensures r.1.id == s.nextId && r.0.nextId == r.1.id + 1
    ensures forall k :: k != r.1.id ==> Get(r.0, k) == Get(s, k)
    ensures r.1.name == name && r.1.date == today && r.1.totalSeconds == 0 && r.1.createdAt == createdAt
  {
    var t := Task(s.nextId, name, today, 0, createdAt);
    (Store(s.rows[s.nextId := t], s.nextId + 1), t)
  }

  function UpdateRow(s: Store, id: int, change: Task -> Task): (r: Store)
    requires Valid(s)
    requires forall t :: change(t).id == t.id
    ensures Valid(r) && r.nextId == s.nextId
    ensures forall k :: k != id ==> Get(r, k) == Get(s, k)
    ensures Get(r, id) == if id in s.rows then Some(change(s.rows[id])) else None
  {
    s.(rows := Table.Update(s.rows, id, change))
  }

  /** `updateTaskTime`: the total of that row becomes `totalSeconds`. */
  function UpdateTaskTime(s: Store, id: int, totalSeconds: int): (r: Store)
    requires Valid(s)
    ensures Valid(r)
    ensures forall k :: k != id ==> Get(r, k) == Get(s, k)
    ensures Get(r, id).Some? == Get(s, id).Some?
    ensures Get(r, id).Some? ==> Get(r, id).value == Get(s, id).value.(totalSeconds := totalSeconds)
  {
    UpdateRow(s, id, (t: Task) => t.(totalSeconds := totalSeconds))
  }

  /** `addTimeToTask`: `seconds` added to that row's total only. */
  function AddTimeToTask(s: Store, id: int, seconds: int): (r: Store)
    requires Valid(s)
    ensures Valid(r)
    ensures forall k :: k != id ==> Get(r, k) == Get(s, k)
    ensures Get(r, id).Some? == Get(s, id).Some?
    ensures Get(r, id).Some? ==>
      Get(r, id).value == Get(s, id).value.(totalSeconds := Get(s, id).value.totalSeconds + seconds)
  {
    UpdateRow(s, id, (t: Task) => t.(totalSeconds := t.totalSeconds + seconds))
  }

  /** `adjustTaskTime`: the same signed increment, not clamped at zero. */
  function AdjustTaskTime(s: Store, id: int, seconds: int): (r: Store)
    requires Valid(s)
    ensures r == AddTimeToTask(s, id, seconds)
    ensures Get(r, id).Some? ==> Get(r, id).value.totalSeconds == Get(s, id).value.totalSeconds + seconds
  {
    UpdateRow(s, id, (t: Task) => t.(totalSeconds := t.totalSeconds + seconds))
  }

  /** `deleteTask`: that row is gone, every other row is unchanged. */
  function DeleteTask(s: Store, id: int): (r: Store)
    requires Valid(s)
    ensures Valid(r) && r.nextId == s.nextId
    ensures Get(r, id).None?
    ensures forall k :: k != id ==> Get(r, k) == Get(s, k)
  {
    s.(rows := s.rows - {id})
  }

  /** `getTodaysTasks`: each task whose `date` is `today` once, newest
      first. */
  function GetTodaysTasks(s: Store, today: string): (r: seq<Task>)
    requires Valid(s)
    ensures forall t :: multiset(r)[t] == if Stored(s, t) && t.date == today then 1 else 0
    ensures Ordering.SortedDesc(r, CreatedKey)
  {
    var rows := Table.Select(s.rows, TaskId, (t: Task) => t.date == today, 1, s.nextId);
    Ordering.SortDesc(rows, CreatedKey)
  }

  /** `date` lies between the bounds, both included, as SQLite compares
      text. */
  predicate InRange(date: string, startDate: string, endDate: string) {
    Ordering.StrLe(startDate, date) && Ordering.StrLe(date, endDate)
  }

  /** `getTasksInRange`: each task dated from `startDate` to `endDate`
      inclusive once, latest day first and newest first within a day. */
  function GetTasksInRange(s: Store, startDate: string, endDate: string): (r: seq<Task>)
    requires Valid(s)
    ensures forall t :: multiset(r)[t] == if Stored(s, t) && InRange(t.date, startDate, endDate) then 1 else 0
    ensures Ordering.SortedDesc(r, DateCreatedKey)
  {
    var rows := Table.Select(s.rows, TaskId, (t: Task) => InRange(t.date, startDate, endDate), 1, s.nextId);
    Ordering.SortDesc(rows, DateCreatedKey)
  }

  /** In the range listing, a task of a later day always comes before a task
      of an earlier day. */
  lemma RangeByDay(s: Store, startDate: string, endDate: string, i: int, j: int)
    requires Valid(s)
    requires var r := GetTasksInRange(s, startDate, endDate);
      0 <= i < j < |r| && r[i].date != r[j].date
    ensures var r := GetTasksInRange(s, startDate, endDate);
      Ordering.StrLe(r[j].date, r[i].date)
  {
  }

  /** With readable dates throughout, the range is the tasks whose day lies
      from the first bound's day to the second's, both included. */
  lemma RangeByDayNumber(s: Store, startDate: string, endDate: string, t: Task)
    requires Valid(s)
    requires Calendar.ParseDate(startDate).Some? && Calendar.ParseDate(endDate).Some?
    requires Calendar.ParseDate(t.date).Some?
    ensures t in GetTasksInRange(s, startDate, endDate) <==>
      && Stored(s, t)
      && Calendar.DayNumber(Calendar.ParseDate(startDate).value)
         <= Calendar.DayNumber(Calendar.ParseDate(t.date).value)
         <= Calendar.DayNumber(Calendar.ParseDate(endDate).value)
  {
    var r := GetTasksInRange(s, startDate, endDate);
    assert t in r <==> multiset(r)[t] > 0;
    DateOrder.TextOrderIsDayOrder(startDate, t.date);
    DateOrder.TextOrderIsDayOrder(t.date, endDate);
  }

  /** A task created today is in today's list and in any range that
      includes today. */
  lemma CreatedTaskListed(s: Store, name: string, today: string, createdAt: string, startDate: string, endDate: string)
    requires Valid(s)
    ensures var (s', t) := CreateTask(s, name, today, createdAt);
      && t in GetTodaysTasks(s', today)
      && (InRange(today, startDate, endDate) ==> t in GetTasksInRange(s', startDate, endDate))
  {
    var (s', t) := CreateTask(s, name, today, createdAt);
    assert multiset(GetTodaysTasks(s', today))[t] == 1;
    if InRange(today, startDate, endDate) {
      assert multiset(GetTasksInRange(s', startDate, endDate))[t] == 1;
    }
  }

  /** Two increments of one task add up. */
  lemma AddTimeAdditive(s: Store, id: int, a: int, b: int)
    requires Valid(s)
    ensures AddTimeToTask(AddTimeToTask(s, id, a), id, b) == AddTimeToTask(s, id, a + b)
  {
  }
}

=== FILE: optional.dfy ===
/** The optional value used wherever the source returns `null`, `None` or
    `NaN` instead of a result. */
module Optional {

  datatype Option<+T> = None | Some(value: T) {

    /** The value, or `default` when there is none. */
    function GetOr(default: T): T {
      match this
      case Some(v) => v
      case None => default
    }
  }
}

=== FILE: ordering.dfy ===
/** The order SQLite's `ORDER BY … DESC` applies to text columns: strings
    compared character by character (the default binary collation), sort
    keys made of several columns compared column by column, and a sort that
    puts the largest key first. */
module Ordering {

  /** `a` sorts before or with `b`: a prefix sorts first, otherwise the first
      differing character decides. */
  predicate StrLe(a: string, b: string)
    decreases |a|
  {
    |a| == 0 || (|b| > 0 && (a[0] < b[0] || (a[0] == b[0] && StrLe(a[1..], b[1..]))))
  }

  lemma {:induction false} StrLeReflexive(a: string)
    ensures StrLe(a, a)
    decreases |a|
  {
    if |a| > 0 {
      StrLeReflexive(a[1..]);
    }
  }

  lemma {:induction false} StrLeTotal(a: string, b: string)
    ensures StrLe(a, b) || StrLe(b, a)
    decreases |a|
  {
    if |a| > 0 && |b| > 0 && a[0] == b[0] {
      StrLeTotal(a[1..], b[1..]);
    }
  }

  lemma {:induction false} StrLeAntisymmetric(a: string, b: string)
    requires StrLe(a, b) && StrLe(b, a)
    ensures a == b
    decreases |a|
  {
    if |a| > 0 {
      StrLeAntisymmetric(a[1..], b[1..]);
      assert a == [a[0]] + a[1..] && b == [b[0]] + b[1..];
    }
  }

  lemma {:induction false} StrLeTransitive(a: string, b: string, c: string)
    requires StrLe(a, b) && StrLe(b, c)
    ensures StrLe(a, c)
    decreases |a|
  {
    if |a| > 0 && a[0] == b[0] && b[0] == c[0] {
      StrLeTransitive(a[1..], b[1..], c[1..]);
    }
  }

  /** Sort keys of several columns: the first column that differs decides. */
  predicate KeyLe(a: seq<string>, b: seq<string>)
    decreases |a|
  {
    |a| == 0
    || (|b| > 0 && ((a[0] != b[0] && StrLe(a[0], b[0])) || (a[0] == b[0] && KeyLe(a[1..], b[1..]))))
  }

  lemma {:induction false} KeyLeTotal(a: seq<string>, b: seq<string>)
    ensures KeyLe(a, b) || KeyLe(b, a)
    decreases |a|
  {
    if |a| > 0 && |b| > 0 {
      if a[0] == b[0] {
        KeyLeTotal(a[1..], b[1..]);
      } else {
        StrLeTotal(a[0], b[0]);
      }
    }
  }

  lemma {:induction false} KeyLeTransitive(a: seq<string>, b: seq<string>, c: seq<string>)
    requires KeyLe(a, b) && KeyLe(b, c)
    ensures KeyLe(a, c)
    decreases |a|
  {
    if |a| > 0 {
      if a[0] == b[0] && b[0] == c[0] {
        KeyLeTransitive(a[1..], b[1..], c[1..]);
      } else if a[0] != b[0] && b[0] != c[0] {
        StrLeTransitive(a[0], b[0], c[0]);
        if a[0] == c[0] {
          StrLeAntisymmetric(a[0], b[0]);
        }
      }
    }
  }

  /** Largest key first. */
  predicate SortedDesc<T>(xs: seq<T>, key: T -> seq<string>) {
    forall i, j :: 0 <= i < j < |xs| ==> KeyLe(key(xs[j]), key(xs[i]))
  }

  /** Places `x` in front of the first element whose key is not larger, so
      among equal keys the element inserted last comes first. */
  function Insert<T>(x: T, xs: seq<T>, key: T -> seq<string>): (r: seq<T>)
    requires SortedDesc(xs, key)
    ensures multiset(r) == multiset(xs) + multiset{x}
    ensures forall i :: 0 <= i < |r| ==> r[i] == x || r[i] in xs
    ensures SortedDesc(r, key)
  {
    if |xs| == 0 || KeyLe(key(xs[0]), key(x)) then
      InsertFront(x, xs, key);
      [x] + xs
    else
      var rest := Insert(x, xs[1..], key);
      assert xs == [xs[0]] + xs[1..];
      InsertBehind(x, xs, rest, key);
      [xs[0]] + rest
  }

  /** An element whose key is at least the first one's leads the rows. */
  lemma InsertFront<T>(x: T, xs: seq<T>, key: T -> seq<string>)
    requires SortedDesc(xs, key)
    requires |xs| == 0 || KeyLe(key(xs[0]), key(x))
    ensures SortedDesc([x] + xs, key)
  {
    forall j | 0 <= j < |xs|
      ensures KeyLe(key(xs[j]), key(x))
    {
      if j > 0 {
        KeyLeTransitive(key(xs[j]), key(xs[0]), key(x));
      }
    }
  }

  /** An element inserted into the tail stays behind a first row whose key
      is larger. */
  lemma InsertBehind<T>(x: T, xs: seq<T>, rest: seq<T>, key: T -> seq<string>)
    requires |xs| > 0 && SortedDesc(xs, key) && !KeyLe(key(xs[0]), key(x))
    requires SortedDesc(rest, key)
    requires forall i :: 0 <= i < |rest| ==> rest[i] == x || rest[i] in xs[1..]
    ensures SortedDesc([xs[0]] + rest, key)
  {
    KeyLeTotal(key(xs[0]), key(x));
    forall j | 0 <= j < |rest|
      ensures KeyLe(key(rest[j]), key(xs[0]))
    {
      if rest[j] != x {
        var k :| 0 <= k < |xs[1..]| && xs[1..][k] == rest[j];
        assert xs[k + 1] == rest[j];
      }
    }
    var r := [xs[0]] + rest;
    forall i, j | 0 <= i < j < |r|
      ensures KeyLe(key(r[j]), key(r[i]))
    {
      if i > 0 {
        assert r[i] == rest[i - 1] && r[j] == rest[j - 1];
      }
    }
  }

  /** The rows in descending key order; equal keys keep their input order. */
  function SortDesc<T>(xs: seq<T>, key: T -> seq<string>): (r: seq<T>)
    ensures multiset(r) == multiset(xs)
    ensures SortedDesc(r, key)
  {
    if |xs| == 0 then []
    else
      assert xs == [xs[0]] + xs[1..];
      Insert(xs[0], SortDesc(xs[1..], key), key)
  }

  /** Every element of the input, and nothing else, is in the sorted rows. */
  lemma SortDescMembers<T>(xs: seq<T>, key: T -> seq<string>, x: T)
    ensures x in SortDesc(xs, key) <==> x in xs
  {
    var r := SortDesc(xs, key);
    assert x in r <==> x in multiset(r);
    assert x in xs <==> x in multiset(xs);
  }
}

=== FILE: raycast_duration.dfy ===
/** `formatDuration` of the Raycast extension: "1h 0m 5s"-style strings that
    keep the seconds and keep a zero minute after hours. */
module RaycastDuration {
  import opened Text
  import opened Optional
  import opened JsNum
  import opened DurationText
  import ClockFormat

  /** The parts the function pushes, in order. */
  function Parts(seconds: int): (parts: seq<string>)
    ensures 1 <= |parts| <= 3
  {
    var h := FloorDiv(seconds, 3600);
    var m := FloorDiv(Rem(seconds, 3600), 60);
    var s := Rem(seconds, 60);
    (if h > 0 then [IntToString(h) + "h"] else [])
    + (if m > 0 || h > 0 then [IntToString(m) + "m"] else [])
    + [IntToString(s) + "s"]
  }

  /** `formatDuration`: for a non-negative total, space-separated unpadded
      parts that read back as exactly the total, always ending in the
      seconds part; from one hour up the hours, the minutes below the hour
      (even when zero) and the seconds; from one minute up the minutes and
      the seconds; below that the seconds alone. A negative total prints
      only the remainder of its seconds, with the sign `%` gives it. The
      "0s" fallback is unreachable, since the seconds part is always
      pushed. */
  function FormatDuration(seconds: int): (r: string)
    ensures |r| > 0
    ensures seconds >= 0 ==> ReadDuration(r).Some? && ReadDuration(r).value == seconds
    ensures seconds >= 0 ==>
      var parts := Split(r, ' ');
      && |parts| <= 3
      && parts[|parts| - 1] == Part(seconds % 60, 's')
      && (parts[0][|parts[0]| - 1] == 'h' <==> seconds >= 3600)
      && (|parts| >= 2 <==> seconds >= 60)
    ensures seconds >= 3600 ==>
      Split(r, ' ') == [Part(seconds / 3600, 'h'), Part(seconds % 3600 / 60, 'm'), Part(seconds % 60, 's')]
    ensures 60 <= seconds < 3600 ==> Split(r, ' ') == [Part(seconds / 60, 'm'), Part(seconds % 60, 's')]
    ensures 0 <= seconds < 60 ==> r == Part(seconds, 's')
    ensures seconds < 0 ==> r == IntToString(Rem(seconds, 60)) + "s"
  {
    var parts := Parts(seconds);
    var r := if |parts| > 0 then Join(parts, ' ') else "0s";
    assert |r| > 0 by {
      JoinEndsWithLast(parts);
    }
    assert seconds >= 0 ==> DurationOf(parts, seconds) by {
      if seconds >= 0 {
        ReadsBack(seconds);
      }
    }
    assert seconds < 0 ==> parts == [IntToString(Rem(seconds, 60)) + "s"] by {
      if seconds < 0 {
        NegativeParts(seconds);
      }
    }
    r
  }

  /** Below zero neither the hours nor the minutes are positive, so only the
      seconds part is pushed. */
  lemma NegativeParts(seconds: int)
    requires seconds < 0
    ensures Parts(seconds) == [IntToString(Rem(seconds, 60)) + "s"]
  {
    assert FloorDiv(seconds, 3600) < 0;
    assert FloorDiv(Rem(seconds, 3600), 60) <= 0;
  }

  /** What the joined parts promise for a non-negative total. */
  predicate DurationOf(parts: seq<string>, n: nat)
    requires |parts| > 0
  {
    var r := Join(parts, ' ');
    && ReadDuration(r).Some? && ReadDuration(r).value == n
    && Split(r, ' ') == parts
    && |parts| <= 3
    && parts[|parts| - 1] == Part(n % 60, 's')
    && (parts[0][|parts[0]| - 1] == 'h' <==> n >= 3600)
    && (|parts| >= 2 <==> n >= 60)
    && (n >= 3600 ==> parts == [Part(n / 3600, 'h'), Part(n % 3600 / 60, 'm'), Part(n % 60, 's')])
    && (60 <= n < 3600 ==> parts == [Part(n / 60, 'm'), Part(n % 60, 's')])
    && (n < 60 ==> parts == [Part(n, 's')] && r == Part(n, 's'))
  }

  lemma JoinEndsWithLast(parts: seq<string>)
    requires |parts| > 0 && |parts[|parts| - 1]| > 0
    ensures |Join(parts, ' ')| > 0
  {
    if |parts| > 1 {
      JoinEndsWithLast(parts[1..]);
    }
  }

  lemma ReadsBack(n: nat)
    ensures DurationOf(Parts(n), n)
  {
    if n >= 3600 {
      ReadsBackHours(n);
    } else if n >= 60 {
      ReadsBackMinutes(n);
    } else {
      ReadsBackSeconds(n);
    }
  }

  lemma ReadsBackHours(n: nat)
    requires n >= 3600
    ensures DurationOf(Parts(n), n)
  {
    var h, m, s := n / 3600, n % 3600 / 60, n % 60;
    ClockFormat.Recombine(n);
    assert Parts(n) == [Part(h, 'h'), Part(m, 'm'), Part(s, 's')];
    PartsRead([Part(h, 'h'), Part(m, 'm'), Part(s, 's')]);
    ReadThree(h, m, s);
  }

  lemma ReadsBackMinutes(n: nat)
    requires 60 <= n < 3600
    ensures DurationOf(Parts(n), n)
  {
    var m, s := n / 60, n % 60;
    assert n % 3600 == n;
    assert Parts(n) == [Part(m, 'm'), Part(s, 's')];
    PartsRead([Part(m, 'm'), Part(s, 's')]);
    ReadTwo(m, s);
  }

  lemma ReadsBackSeconds(n: nat)
    requires n < 60
    ensures DurationOf(Parts(n), n)
  {
    assert Parts(n) == [Part(n, 's')];
    PartsRead([Part(n, 's')]);
    ReadOne(n);
  }

  /** Joining space-free parts and splitting again is the identity, and
      reading the join is reading the parts. */
  lemma PartsRead(parts: seq<string>)
    requires |parts| > 0
    requires forall i :: 0 <= i < |parts| ==> exists v: nat, u: char :: u != ' ' && parts[i] == Part(v, u)
    ensures Split(Join(parts, ' '), ' ') == parts
    ensures ReadDuration(Join(parts, ' ')) == ReadParts(parts, 0)
  {
    forall i | 0 <= i < |parts| ensures ' ' !in parts[i] {
      var v: nat, u: char :| u != ' ' && parts[i] == Part(v, u);
      PartHasNoSpace(v, u);
    }
    ReadJoined(parts);
    SplitOfJoin(parts, ' ');
  }

  lemma ReadThree(h: nat, m: nat, s: nat)
    ensures var r := ReadParts([Part(h, 'h'), Part(m, 'm'), Part(s, 's')], 0);
      r.Some? && r.value == h * 3600 + m * 60 + s
  {
    var parts := [Part(h, 'h'), Part(m, 'm'), Part(s, 's')];
    ReadPartOfPart(h, 'h');
    ReadPartOfPart(m, 'm');
    ReadPartOfPart(s, 's');
    assert parts[1..] == [Part(m, 'm'), Part(s, 's')] && parts[1..][1..] == [Part(s, 's')];
    assert ReadParts([Part(s, 's')], 2) == Some(s);
    assert ReadParts([Part(m, 'm'), Part(s, 's')], 1) == Some(m * 60 + s);
  }

  lemma ReadTwo(m: nat, s: nat)
    ensures var r := ReadParts([Part(m, 'm'), Part(s, 's')], 0);
      r.Some? && r.value == m * 60 + s
  {
    var parts := [Part(m, 'm'), Part(s, 's')];
    ReadPartOfPart(m, 'm');
    ReadPartOfPart(s, 's');
    assert parts[1..] == [Part(s, 's')];
    assert ReadParts([Part(s, 's')], 2) == Some(s);
  }

  lemma ReadOne(s: nat)
    ensures var r := ReadParts([Part(s, 's')], 0);
      r.Some? && r.value == s
  {
    ReadPartOfPart(s, 's');
  }
}

=== FILE: session.dfy ===
/** The timer of tauri-app/src/lib/hooks/tracking.svelte.ts wired to the
    task table of src-tauri/src/commands/tasks.rs: what `stopTracking` saves
    lands in the table through `add_time_to_task`. */
module Session {
  import opened Optional
  import Tracking
  import TaskStore

  datatype Session = Session(tracker: Tracking.Tracker<TaskStore.Task>, store: TaskStore.Store)

  predicate Valid(s: Session) {
    TaskStore.Valid(s.store) && Tracking.Consistent(s.tracker)
  }

  /** The store after the save a stop asked for, if any. */
  function Save(store: TaskStore.Store, flush: Option<Tracking.Flush>): (r: TaskStore.Store)
    requires TaskStore.Valid(store)
    ensures TaskStore.Valid(r)
  {
    match flush
    case None => store
    case Some(AddTime(taskId, seconds)) => TaskStore.AddTimeToTask(store, taskId, seconds)
  }

  /** `startTracking`: the table is untouched; the same task (by id) leaves
      everything as it was, any other task starts a fresh count now. */
  function Start(s: Session, task: TaskStore.Task, now: int): (r: Session)
    requires Valid(s)
    ensures Valid(r) && r.store == s.store
    ensures Tracking.IsTracking(r.tracker) && r.tracker.current.value.id == task.id
    ensures s.tracker.current.Some? && s.tracker.current.value.id == task.id ==> r == s
    ensures !(s.tracker.current.Some? && s.tracker.current.value.id == task.id) ==>
      r.tracker == Tracking.Tracker(Some(task), 0, Some(now), Some(Tracking.Running))
  {
    s.(tracker := Tracking.Start(s.tracker, task, TaskStore.TaskId, now))
  }

  /** A tick of the interval: the table and the task are untouched; while
      the interval runs with a truthy start the count becomes the whole
      seconds since the start, and otherwise nothing changes. */
  function Tick(s: Session, now: int): (r: Session)
    requires Valid(s)
    ensures Valid(r) && r.store == s.store && r.tracker.current == s.tracker.current
    ensures s.tracker.interval == Some(Tracking.Running) && s.tracker.start.Some? && s.tracker.start.value != 0 ==>
      r.tracker.elapsed * 1000 <= now - s.tracker.start.value < r.tracker.elapsed * 1000 + 1000
    ensures !(s.tracker.interval == Some(Tracking.Running) && s.tracker.start.Some? && s.tracker.start.value != 0) ==>
      r == s
  {
    s.(tracker := Tracking.Tick(s.tracker, now))
  }

  /** Only a positive elapsed time is saved. */
  function Positive(seconds: int): int {
    if seconds > 0 then seconds else 0
  }

  /** `stopTracking` followed by the `add_time_to_task` it awaits: idle, and
      the tracked task's total grows by the last ticked elapsed seconds while
      its other fields stay; every other row, and the next id, are
      unchanged. */
  function Stop(s: Session): (r: Session)
    requires Valid(s)
    ensures Valid(r) && !Tracking.IsTracking(r.tracker)
    ensures r.store.nextId == s.store.nextId
    ensures forall k :: (s.tracker.current.None? || k != s.tracker.current.value.id) ==>
      TaskStore.GetTaskById(r.store, k) == TaskStore.GetTaskById(s.store, k)
    ensures s.tracker.current.Some? ==>
      var id := s.tracker.current.value.id;
      && TaskStore.GetTaskById(r.store, id).Some? == TaskStore.GetTaskById(s.store, id).Some?
      && (TaskStore.GetTaskById(s.store, id).Some? ==>
            var task := TaskStore.GetTaskById(s.store, id).value;
            TaskStore.GetTaskById(r.store, id).value
            == task.(totalSeconds := task.totalSeconds + Positive(s.tracker.elapsed)))
  {
    var (idle, flush) := Tracking.Stop(s.tracker, TaskStore.TaskId);
    Session(idle, Save(s.store, flush))
  }

  /** `closeWindow` (tauri-app/src/lib/hooks/keyboard.svelte.ts): the timer
      is stopped and its time saved before the window closes; only the
      tracked task's total changes. */
  function CloseWindow(s: Session): (r: Session)
    requires Valid(s)
    ensures Valid(r) && !Tracking.IsTracking(r.tracker)
    ensures r.store.nextId == s.store.nextId
    ensures forall k :: (s.tracker.current.None? || k != s.tracker.current.value.id) ==>
      TaskStore.GetTaskById(r.store, k) == TaskStore.GetTaskById(s.store, k)
    ensures s.tracker.current.Some? && TaskStore.GetTaskById(s.store, s.tracker.current.value.id).Some? ==>
      var id := s.tracker.current.value.id;
      var task := TaskStore.GetTaskById(s.store, id).value;
      TaskStore.GetTaskById(r.store, id) == Some(task.(totalSeconds := task.totalSeconds + Positive(s.tracker.elapsed)))
  {
    Stop(s)
  }

  /** Start, a tick and a stop add the whole seconds between the start and
      the tick to the started task, and touch no other task. */
  lemma StartTickStop(s: Session, task: TaskStore.Task, startAt: int, tickAt: int)
    requires Valid(s) && !Tracking.IsTracking(s.tracker)
    requires TaskStore.Stored(s.store, task)
    requires startAt != 0 && tickAt >= startAt
    ensures var r := Stop(Tick(Start(s, task, startAt), tickAt));
      && TaskStore.GetTaskById(r.store, task.id) == Some(task.(totalSeconds := task.totalSeconds + (tickAt - startAt) / 1000))
      && forall k :: k != task.id ==> TaskStore.GetTaskById(r.store, k) == TaskStore.GetTaskById(s.store, k)
  {
    var t := Tick(Start(s, task, startAt), tickAt);
    assert t.tracker.elapsed == (tickAt - startAt) / 1000;
    assert TaskStore.GetTaskById(s.store, task.id) == Some(task);
  }

  /** Starting another task while one is tracked, then stopping, leaves the
      table exactly as it was: the first task's ticked time is never saved. */
  lemma SwitchLosesTime(s: Session, other: TaskStore.Task, now: int)
    requires Valid(s) && Tracking.IsTracking(s.tracker)
    requires s.tracker.current.value.id != other.id
    ensures Stop(Start(s, other, now)).store == s.store
  {
  }

  /** A switch that saves first, as `startTracking`'s comment intends. */
  function StartSaving(s: Session, task: TaskStore.Task, now: int): (r: Session)
    requires Valid(s)
    ensures Valid(r)
    ensures r.tracker == Tracking.Start(s.tracker, task, TaskStore.TaskId, now)
    ensures forall k :: (s.tracker.current.None? || k != s.tracker.current.value.id) ==>
      TaskStore.GetTaskById(r.store, k) == TaskStore.GetTaskById(s.store, k)
  {
    var (tracker, flush) := Tracking.StartAndSave(s.tracker, task, TaskStore.TaskId, now);
    Session(tracker, Save(s.store, flush))
  }

  /** With the saving switch, the first task gets its ticked time, exactly
      as a stop before the start would give it. */
  lemma SwitchSavingKeepsTime(s: Session, other: TaskStore.Task, now: int)
    requires Valid(s) && Tracking.IsTracking(s.tracker)
    requires s.tracker.current.value.id != other.id
    requires TaskStore.GetTaskById(s.store, s.tracker.current.value.id).Some?
    ensures var id := s.tracker.current.value.id;
      && TaskStore.GetTaskById(StartSaving(s, other, now).store, id).Some?
      && TaskStore.GetTaskById(StartSaving(s, other, now).store, id).value.totalSeconds
         == TaskStore.GetTaskById(s.store, id).value.totalSeconds + Positive(s.tracker.elapsed)
    ensures StartSaving(s, other, now) == Start(Stop(s), other, now)
  {
    Tracking.StartAndSaveIsStopThenStart(s.tracker, other, TaskStore.TaskId, now);
  }

  /** Stopping twice saves once. */
  lemma StopTwice(s: Session)
    requires Valid(s)
    ensures Stop(Stop(s)) == Stop(s)
  {
  }

  /** Time saved for a task that was deleted while it was tracked goes
      nowhere, and nothing else changes. */
  lemma StopAfterDelete(s: Session)
    requires Valid(s) && Tracking.IsTracking(s.tracker)
    ensures var id := s.tracker.current.value.id;
      var deleted := s.(store := TaskStore.DeleteTask(s.store, id));
      Stop(deleted).store == deleted.store
  {
  }
}

=== FILE: sidebar.dfy ===
/** The sidebar width of tauri-app/src/lib/hooks/sidebar.svelte.ts: a width
    restored from local storage by `init`, changed by `setWidth` with a snap
    to the collapsed width, and written back as text. */
module Sidebar {
  import opened Optional
  import opened Text
  import opened JsNum

  const DefaultWidth := 200
  const MinWidth := 60
  const MaxWidth := 300
  const CollapseThreshold := 100

  /** `Math.max(MIN_WIDTH, Math.min(MAX_WIDTH, v))`. */
  function Clamp(v: int): (r: int)
    ensures MinWidth <= r <= MaxWidth
    ensures MinWidth <= v <= MaxWidth ==> r == v
    ensures v < MinWidth ==> r == MinWidth
    ensures v > MaxWidth ==> r == MaxWidth
  {
    if v < MinWidth then MinWidth else if v > MaxWidth then MaxWidth else v
  }

  /** `init`: a stored value that is present, non-empty and starts with a
      number replaces the width, clamped into 60..300 (to the nearer bound
      when outside) but never snapped; anything else
      leaves the width as it was (200 when the module loads). `None` is a
      missing item or no local storage at all. */
  function Init(width: int, stored: Option<string>): (r: int)
    ensures stored.None? || stored.value == "" || ParseInt(stored.value).None? ==> r == width
    ensures stored.Some? && stored.value != "" && ParseInt(stored.value).Some? ==>
      && MinWidth <= r <= MaxWidth
      && (MinWidth <= ParseInt(stored.value).value <= MaxWidth ==> r == ParseInt(stored.value).value)
      && r == Clamp(ParseInt(stored.value).value)
  {
    match stored
    case None => width
    case Some(text) =>
      if text == "" then width
      else match ParseInt(text)
        case None => width
        case Some(parsed) => Clamp(parsed)
  }

  /** `setWidth`: a value below the threshold snaps to the collapsed width,
      any other is clamped. */
  function SetWidth(value: int): (r: int)
    ensures r == MinWidth || CollapseThreshold <= r <= MaxWidth
    ensures r == MinWidth <==> value < CollapseThreshold
    ensures CollapseThreshold <= value <= MaxWidth ==> r == value
    ensures value > MaxWidth ==> r == MaxWidth
    ensures value >= CollapseThreshold ==> r == Clamp(value)
  {
    if value < CollapseThreshold then MinWidth else Clamp(value)
  }

  /** The text `setWidth` stores: `String(width)`. */
  function Persisted(width: int): (r: string)
    ensures ParseInt(r) == Some(width)
  {
    ParseIntOfIntToString(width);
    IntToString(width)
  }

  /** `collapsed`. */
  predicate Collapsed(width: int) {
    width <= MinWidth
  }

  /** Setting a width that `setWidth` produced changes nothing. */
  lemma SetWidthIdempotent(value: int)
    ensures SetWidth(SetWidth(value)) == SetWidth(value)
  {
  }

  /** The sidebar is collapsed after `setWidth(v)` exactly when `v` is below
      the threshold. */
  lemma CollapsedAfterSetWidth(value: int)
    ensures Collapsed(SetWidth(value)) <==> value < CollapseThreshold
  {
  }

  /** A width saved by `setWidth` is the one `init` restores. */
  lemma InitRestoresSetWidth(width: int, value: int)
    ensures Init(width, Some(Persisted(SetWidth(value)))) == SetWidth(value)
  {
    var w := SetWidth(value);
    var text := Persisted(w);
    assert text == NatToString(w) && text != "";
    assert Init(width, Some(text)) == Clamp(w);
  }

  /** `init` does not snap: a stored 80 gives a width of 80, which
      `setWidth(80)` would have turned into 60. */
  lemma InitDoesNotSnap()
    ensures Init(DefaultWidth, Some("80")) == 80
    ensures SetWidth(80) == MinWidth
    ensures !Collapsed(Init(DefaultWidth, Some("80")))
  {
    ParseEighty();
    assert "80" != "" && ParseInt("80").value == 80;
    assert Init(DefaultWidth, Some("80")) == Clamp(80);
  }

  lemma ParseEighty()
    ensures ParseInt("80") == Some(80)
  {
    assert IntToString(80) == "80" by {
      assert NatToString(8) == "8";
    }
    ParseIntOfIntToString(80);
  }

  /** An unreadable stored value keeps the default width. */
  lemma InitKeepsDefault()
    ensures Init(DefaultWidth, None) == DefaultWidth
    ensures Init(DefaultWidth, Some("")) == DefaultWidth
    ensures Init(DefaultWidth, Some("wide")) == DefaultWidth
  {
    var wide := "wide";
    assert wide[0] == 'w' && !IsWhitespace('w') && !IsDigit('w');
    NoNumber(wide);
  }

  /** A text that starts with a character other than white space, a sign
      or a digit holds no number. */
  lemma NoNumber(text: string)
    requires |text| > 0 && !IsWhitespace(text[0]) && !IsDigit(text[0])
    requires text[0] != '+' && text[0] != '-'
    ensures ParseInt(text).None?
  {
    assert TrimStart(text) == text;
    assert SignFree(text) == text;
    assert DigitPrefix(text) == "";
  }
}

=== FILE: table.dfy ===
/** A SQLite table with an `INTEGER PRIMARY KEY AUTOINCREMENT` column, seen as
    a map from key to row, and the `SELECT … WHERE` scan over it. */
module Table {

  /** Every row carries the key it is stored under. */
  predicate Keyed<R>(rows: map<int, R>, id: R -> int) {
    forall k :: k in rows ==> id(rows[k]) == k
  }

  /** `x` is the row stored under its own key. */
  predicate Stored<R(==)>(rows: map<int, R>, id: R -> int, x: R) {
    id(x) in rows && rows[id(x)] == x
  }

  /** `UPDATE … WHERE id = k`: `change` applied to the row under `k`, if
      there is one; every other row is left as it was. */
  function Update<R>(rows: map<int, R>, k: int, change: R -> R): (r: map<int, R>)
    ensures r.Keys == rows.Keys
    ensures forall j :: j in rows && j != k ==> r[j] == rows[j]
    ensures k in rows ==> r[k] == change(rows[k])
  {
    if k in rows then rows[k := change(rows[k])] else rows
  }

  /** The rows with keys in `[lo, hi)` that `keep` accepts, each once, in key
      order. */
  function Select<R(==,!new)>(rows: map<int, R>, id: R -> int, keep: R -> bool, lo: int, hi: int): (r: seq<R>)
    requires Keyed(rows, id)
    ensures Selected(rows, id, keep, lo, hi, r)
    decreases hi - lo
  {
    if lo >= hi then []
    else
      var rest := Select(rows, id, keep, lo + 1, hi);
      if lo in rows && keep(rows[lo]) then
        SelectTaken(rows, id, keep, lo, hi, rest);
        [rows[lo]] + rest
      else
        SelectSkipped(rows, id, keep, lo, hi, rest);
        rest
  }

  /** `r` holds each stored row with a key in `[lo, hi)` that `keep` accepts
      exactly once, and no other row, in increasing key order. */
  ghost predicate Selected<R(!new)>(rows: map<int, R>, id: R -> int, keep: R -> bool, lo: int, hi: int, r: seq<R>) {
    && (forall x :: multiset(r)[x] == if Stored(rows, id, x) && lo <= id(x) < hi && keep(x) then 1 else 0)
    && (forall i, j :: 0 <= i < j < |r| ==> id(r[i]) < id(r[j]))
  }

  /** The scan step that takes the row under `lo`. */
  lemma SelectTaken<R(!new)>(rows: map<int, R>, id: R -> int, keep: R -> bool, lo: int, hi: int, rest: seq<R>)
    requires Keyed(rows, id) && lo < hi && lo in rows && keep(rows[lo])
    requires Selected(rows, id, keep, lo + 1, hi, rest)
    ensures Selected(rows, id, keep, lo, hi, [rows[lo]] + rest)
  {
    var a := rows[lo];
    var r := [a] + rest;
    assert multiset(r) == multiset([a]) + multiset(rest);
    forall x
      ensures multiset(r)[x] == if Stored(rows, id, x) && lo <= id(x) < hi && keep(x) then 1 else 0
    {
      assert multiset(r)[x] == multiset([a])[x] + multiset(rest)[x];
      if x == a {
        assert Stored(rows, id, x) && id(x) == lo;
      } else if Stored(rows, id, x) {
        assert id(x) != lo;
      }
    }
    forall i | 0 <= i < |rest|
      ensures lo < id(rest[i])
    {
      assert multiset(rest)[rest[i]] > 0;
    }
    forall i, j | 0 <= i < j < |r|
      ensures id(r[i]) < id(r[j])
    {
      assert r[j] == rest[j - 1];
      if i > 0 {
        assert r[i] == rest[i - 1];
      }
    }
  }

  /** The scan step that passes over `lo`. */
  lemma SelectSkipped<R(!new)>(rows: map<int, R>, id: R -> int, keep: R -> bool, lo: int, hi: int, rest: seq<R>)
    requires Keyed(rows, id) && lo < hi && !(lo in rows && keep(rows[lo]))
    requires Selected(rows, id, keep, lo + 1, hi, rest)
    ensures Selected(rows, id, keep, lo, hi, rest)
  {
    forall x
      ensures multiset(rest)[x] == if Stored(rows, id, x) && lo <= id(x) < hi && keep(x) then 1 else 0
    {
      if Stored(rows, id, x) && id(x) == lo {
        assert rows[lo] == x;
      }
    }
  }

  /** A row is selected exactly when it is in the table and accepted. */
  lemma SelectMembers<R(!new)>(rows: map<int, R>, id: R -> int, keep: R -> bool, lo: int, hi: int, x: R)
    requires Keyed(rows, id)
    requires forall k :: k in rows ==> lo <= k < hi
    ensures x in Select(rows, id, keep, lo, hi) <==> Stored(rows, id, x) && keep(x)
  {
    var r := Select(rows, id, keep, lo, hi);
    assert x in r <==> multiset(r)[x] > 0;
    assert Selected(rows, id, keep, lo, hi, r);
  }
}

=== FILE: task_store.dfy ===
/** The `tasks` table behind the Tauri commands in
    `src-tauri/src/commands/tasks.rs`: each command's SQL statement as an
    operation on a map from task id to row. */
module TaskStore {
  import opened Optional
  import opened Text
  import Calendar
  import Table
  import Ordering
  import DateOrder

  /** A row as the commands return it. */
  datatype Task = Task(id: int, name: string, totalSeconds: int, createdAt: string, note: Option<string>)

  /** The rows by id, and the id `AUTOINCREMENT` hands out next (ids are
      never reused, even after a delete). */
  datatype Store = Store(rows: map<int, Task>, nextId: int)

  function TaskId(t: Task): int { t.id }

  /** `ORDER BY created_at DESC` sorts on this key. */
  function CreatedKey(t: Task): seq<string> { [t.createdAt] }

  predicate Valid(s: Store) {
    && s.nextId >= 1
    && Table.Keyed(s.rows, TaskId)
    && forall k :: k in s.rows ==> 1 <= k < s.nextId
  }

  /** `t` is a row of the table. */
  predicate Stored(s: Store, t: Task) {
    Table.Stored(s.rows, TaskId, t)
  }

  /** `get_task_by_id`: the row with that id, if there is one. */
  function GetTaskById(s: Store, id: int): (r: Option<Task>)
    requires Valid(s)
    ensures r.Some? ==> r.value.id == id && Stored(s, r.value)
    ensures r.None? ==> forall t :: Stored(s, t) ==> t.id != id
  {
    if id in s.rows then Some(s.rows[id]) else None
  }

  /** The effect of `UPDATE tasks SET … WHERE id = ?`: `change` applied to
      that row, nothing when no row has the id. */
  function UpdateRow(s: Store, id: int, change: Task -> Task): (r: Store)
    requires Valid(s)
    requires forall t :: change(t).id == t.id
    ensures Valid(r) && r.nextId == s.nextId
    ensures forall k :: k != id ==> GetTaskById(r, k) == GetTaskById(s, k)
    ensures GetTaskById(r, id) == if id in s.rows then Some(change(s.rows[id])) else None
  {
    s.(rows := Table.Update(s.rows, id, change))
  }

  /** `create_task`: a new row under the id `AUTOINCREMENT` hands out next,
      larger than every id handed out before, holding the initial seconds
      (0 when none are given), midnight of `date` as its creation time and
      no note. */
  function CreateTask(s: Store, name: string, date: string, initialSeconds: Option<int>): (r: (Store, Task))
    requires Valid(s)
    ensures Valid(r.0)
    ensures GetTaskById(s, r.1.id).None? && GetTaskById(r.0, r.1.id) == Some(r.1)
    ensures r.1.id == s.nextId && r.0.nextId == r.1.id + 1
    ensures forall k :: k != r.1.id ==> GetTaskById(r.0, k) == GetTaskById(s, k)
    ensures r.1.name == name && r.1.note.None?
    ensures r.1.totalSeconds == (if initialSeconds.Some? then initialSeconds.value else 0)
    ensures r.1.createdAt == date + " 00:00:00"
  {
    var t := Task(s.nextId, name, initialSeconds.GetOr(0), date + " 00:00:00", None);
    (Store(s.rows[s.nextId := t], s.nextId + 1), t)
  }

  /** The service wrapper sends no initial time unless it is positive, so a
      task is never created with a negative total. */
  function InitialSecondsArgument(initialSeconds: int): (r: Option<int>)
    ensures r.Some? <==> initialSeconds > 0
    ensures r.Some? ==> r.value == initialSeconds
  {
    if initialSeconds > 0 then Some(initialSeconds) else None
  }

  lemma CreatedTotalNonNegative(s: Store, name: string, date: string, initialSeconds: int)
    requires Valid(s)
    ensures CreateTask(s, name, date, InitialSecondsArgument(initialSeconds)).1.totalSeconds
      == if initialSeconds > 0 then initialSeconds else 0
  {
  }

  /** `update_task_time`: the total of that row becomes `totalSeconds`. */
  function UpdateTaskTime(s: Store, id: int, totalSeconds: int): (r: Store)
    requires Valid(s)
    ensures Valid(r)
    ensures forall k :: k != id ==> GetTaskById(r, k) == GetTaskById(s, k)
    ensures GetTaskById(r, id).Some? == GetTaskById(s, id).Some?
    ensures GetTaskById(r, id).Some? ==>
      GetTaskById(r, id).value == GetTaskById(s, id).value.(totalSeconds := totalSeconds)
  {
    UpdateRow(s, id, (t: Task) => t.(totalSeconds := totalSeconds))
  }

  /** `add_time_to_task`: `seconds` added to that row's total; an unknown id
      changes nothing. */
  function AddTimeToTask(s: Store, id: int, seconds: int): (r: Store)
    requires Valid(s)
    ensures Valid(r)
    ensures forall k :: k != id ==> GetTaskById(r, k) == GetTaskById(s, k)
    ensures GetTaskById(r, id).Some? == GetTaskById(s, id).Some?
    ensures GetTaskById(r, id).Some? ==>
      GetTaskById(r, id).value == GetTaskById(s, id).value.(totalSeconds := GetTaskById(s, id).value.totalSeconds + seconds)
  {
    UpdateRow(s, id, (t: Task) => t.(totalSeconds := t.totalSeconds + seconds))
  }

  /** `adjust_task_time`: the same signed increment; the total is not
      clamped, so it can fall below zero. */
  function AdjustTaskTime(s: Store, id: int, seconds: int): (r: Store)
    requires Valid(s)
    ensures r == AddTimeToTask(s, id, seconds)
    ensures GetTaskById(r, id).Some? ==>
      GetTaskById(r, id).value.totalSeconds == GetTaskById(s, id).value.totalSeconds + seconds
  {
    UpdateRow(s, id, (t: Task) => t.(totalSeconds := t.totalSeconds + seconds))
  }

  /** `update_task_name`: only the name of that row changes. */
  function UpdateTaskName(s: Store, id: int, name: string): (r: Store)
    requires Valid(s)
    ensures Valid(r)
    ensures forall k :: k != id ==> GetTaskById(r, k) == GetTaskById(s, k)
    ensures GetTaskById(r, id).Some? == GetTaskById(s, id).Some?
    ensures GetTaskById(r, id).Some? ==> GetTaskById(r, id).value == GetTaskById(s, id).value.(name := name)
  {
    UpdateRow(s, id, (t: Task) => t.(name := name))
  }

  /** `update_task_note`: only the note of that row changes; `None` clears
      it. */
  function UpdateTaskNote(s: Store, id: int, note: Option<string>): (r: Store)
    requires Valid(s)
    ensures Valid(r)
    ensures forall k :: k != id ==> GetTaskById(r, k) == GetTaskById(s, k)
    ensures GetTaskById(r, id).Some? == GetTaskById(s, id).Some?
    ensures GetTaskById(r, id).Some? ==> GetTaskById(r, id).value == GetTaskById(s, id).value.(note := note)
  {
    UpdateRow(s, id, (t: Task) => t.(note := note))
  }

  /** `delete_task`: the row is gone and every other row is unchanged. */
  function DeleteTask(s: Store, id: int): (r: Store)
    requires Valid(s)
    ensures Valid(r) && r.nextId == s.nextId
    ensures GetTaskById(r, id).None?
    ensures forall k :: k != id ==> GetTaskById(r, k) == GetTaskById(s, k)
  {
    s.(rows := s.rows - {id})
  }

  /** "HH:MM:SS" preceded by a space, as a valid time of day. */
  predicate IsTimeOfDay(t: string) {
    && |t| == 9 && t[0] == ' ' && t[3] == ':' && t[6] == ':'
    && AllDigits(t[1..3]) && AllDigits(t[4..6]) && AllDigits(t[7..])
    && Value(t[1..3]) < 24 && Value(t[4..6]) < 60 && Value(t[7..]) < 60
  }

  /** SQLite's `date(created_at)` for the two timestamp forms the app
      stores, "YYYY-MM-DD" and "YYYY-MM-DD HH:MM:SS": the date part, or NULL
      (`None`) when the text is not such a timestamp. */
  function DateOf(createdAt: string): (r: Option<string>)
    ensures r.Some? ==> |createdAt| >= 10 && r.value == createdAt[..10]
    ensures r.Some? ==> Calendar.ParseDate(r.value).Some?
  {
    if |createdAt| >= 10 && Calendar.ParseDate(createdAt[..10]).Some?
       && (|createdAt| == 10 || IsTimeOfDay(createdAt[10..]))
    then Some(createdAt[..10])
    else None
  }

  /** The rows `keep` accepts, newest `created_at` first. */
  function Query(s: Store, keep: Task -> bool): (r: seq<Task>)
    requires Valid(s)
    ensures forall t :: multiset(r)[t] == if Stored(s, t) && keep(t) then 1 else 0
    ensures Ordering.SortedDesc(r, CreatedKey)
  {
    var rows := Table.Select(s.rows, TaskId, keep, 1, s.nextId);
    assert forall t :: multiset(rows)[t] == if Stored(s, t) && keep(t) then 1 else 0;
    Ordering.SortDesc(rows, CreatedKey)
  }

  /** `get_tasks_for_date`: each task created on `date` once, newest first. */
  function GetTasksForDate(s: Store, date: string): (r: seq<Task>)
    requires Valid(s)
    ensures forall t :: multiset(r)[t] == if Stored(s, t) && DateOf(t.createdAt) == Some(date) then 1 else 0
    ensures Ordering.SortedDesc(r, CreatedKey)
  {
    Query(s, (t: Task) => DateOf(t.createdAt) == Some(date))
  }

  /** `get_todays_tasks`: each task of the local date `today`, which the
      command reads from the clock, once, newest first. */
  function GetTodaysTasks(s: Store, today: string): (r: seq<Task>)
    requires Valid(s)
    ensures forall t :: t in r <==> Stored(s, t) && DateOf(t.createdAt) == Some(today)
    ensures forall t :: multiset(r)[t] == if Stored(s, t) && DateOf(t.createdAt) == Some(today) then 1 else 0
    ensures Ordering.SortedDesc(r, CreatedKey)
  {
    var r := GetTasksForDate(s, today);
    assert forall t :: t in r <==> multiset(r)[t] > 0;
    r
  }

  /** `date(created_at)` lies between the two bounds, both included, as
      SQLite compares text. */
  predicate InRange(createdAt: string, startDate: string, endDate: string) {
    DateOf(createdAt).Some?
    && Ordering.StrLe(startDate, DateOf(createdAt).value)
    && Ordering.StrLe(DateOf(createdAt).value, endDate)
  }

  /** `get_tasks_in_range`: each task created from `startDate` to `endDate`
      inclusive once, newest first. */
  function GetTasksInRange(s: Store, startDate: string, endDate: string): (r: seq<Task>)
    requires Valid(s)
    ensures forall t :: multiset(r)[t] == if Stored(s, t) && InRange(t.createdAt, startDate, endDate) then 1 else 0
    ensures Ordering.SortedDesc(r, CreatedKey)
  {
    Query(s, (t: Task) => InRange(t.createdAt, startDate, endDate))
  }

  /** A range of one day lists the same tasks as that day. */
  lemma RangeOfOneDay(s: Store, date: string, t: Task)
    requires Valid(s)
    ensures t in GetTasksInRange(s, date, date) <==> t in GetTasksForDate(s, date)
  {
    var inRange, onDay := GetTasksInRange(s, date, date), GetTasksForDate(s, date);
    assert t in inRange <==> multiset(inRange)[t] > 0;
    assert t in onDay <==> multiset(onDay)[t] > 0;
    if InRange(t.createdAt, date, date) {
      Ordering.StrLeAntisymmetric(date, DateOf(t.createdAt).value);
    }
    if DateOf(t.createdAt) == Some(date) {
      Ordering.StrLeReflexive(date);
    }
  }

  /** A task created for a valid date is listed for that date. */
  lemma CreatedTaskListed(s: Store, name: string, date: string, initialSeconds: Option<int>)
    requires Valid(s) && Calendar.ParseDate(date).Some?
    ensures var (s', t) := CreateTask(s, name, date, initialSeconds);
      t in GetTasksForDate(s', date)
  {
    var (s', t) := CreateTask(s, name, date, initialSeconds);
    MidnightOf(date);
    assert multiset(GetTasksForDate(s', date))[t] == 1;
  }

  /** The midnight timestamp of a readable date falls on that date. */
  lemma MidnightOf(date: string)
    requires Calendar.ParseDate(date).Some?
    ensures DateOf(date + " 00:00:00") == Some(date)
  {
    var stamp := date + " 00:00:00";
    assert stamp[..10] == date && stamp[10..] == " 00:00:00";
    Midnight();
  }

  lemma Midnight()
    ensures IsTimeOfDay(" 00:00:00")
  {
    var u := " 00:00:00";
    assert u[1..3] == "00" && u[4..6] == "00" && u[7..] == "00";
    assert Value("00") == 0;
  }

  /** With readable bounds, the range is the tasks whose day lies from the
      first bound's day to the second's, both included: comparing the texts
      compares the days. */
  lemma RangeByDayNumber(s: Store, startDate: string, endDate: string, t: Task)
    requires Valid(s)
    requires Calendar.ParseDate(startDate).Some? && Calendar.ParseDate(endDate).Some?
    ensures t in GetTasksInRange(s, startDate, endDate) <==>
      && Stored(s, t) && DateOf(t.createdAt).Some?
      && Calendar.DayNumber(Calendar.ParseDate(startDate).value)
         <= Calendar.DayNumber(Calendar.ParseDate(DateOf(t.createdAt).value).value)
         <= Calendar.DayNumber(Calendar.ParseDate(endDate).value)
  {
    var r := GetTasksInRange(s, startDate, endDate);
    assert t in r <==> multiset(r)[t] > 0;
    if DateOf(t.createdAt).Some? {
      var day := DateOf(t.createdAt).value;
      DateOrder.TextOrderIsDayOrder(startDate, day);
      DateOrder.TextOrderIsDayOrder(day, endDate);
    }
  }

  /** A range from `startDate` to `addDays(startDate, 6)` lists the tasks of
      those seven days, whenever the last day still prints with four year
      digits. */
  lemma WeekRange(s: Store, startDate: string, t: Task)
    requires Valid(s) && Calendar.ParseDate(startDate).Some?
    requires 1000 <= Calendar.Shift(Calendar.ParseDate(startDate).value, 6).year <= 9999
    ensures t in GetTasksInRange(s, startDate, Calendar.AddDays(startDate, 6)) <==>
      && Stored(s, t) && DateOf(t.createdAt).Some?
      && var first := Calendar.DayNumber(Calendar.ParseDate(startDate).value);
         first <= Calendar.DayNumber(Calendar.ParseDate(DateOf(t.createdAt).value).value) <= first + 6
  {
    RangeByDayNumber(s, startDate, Calendar.AddDays(startDate, 6), t);
  }

  /** Two increments of one task add up. */
  lemma AddTimeAdditive(s: Store, id: int, a: int, b: int)
    requires Valid(s)
    ensures AddTimeToTask(AddTimeToTask(s, id, a), id, b) == AddTimeToTask(s, id, a + b)
  {
  }

  /** Deleting a task right after creating it leaves the same rows (the id
      is still used up). */
  lemma CreateThenDelete(s: Store, name: string, date: string, initialSeconds: Option<int>)
    requires Valid(s)
    ensures var (s', t) := CreateTask(s, name, date, initialSeconds);
      DeleteTask(s', t.id).rows == s.rows && DeleteTask(s', t.id).nextId == s.nextId + 1
  {
    var (s', t) := CreateTask(s, name, date, initialSeconds);
    assert t.id !in s.rows;
    assert DeleteTask(s', t.id).rows == s.rows;
  }

  /** Ids are never reused: a task created after another was created and
      deleted gets a larger id. */
  lemma NoIdReuse(s: Store, name: string, date: string, initialSeconds: Option<int>,
                  name2: string, date2: string, initialSeconds2: Option<int>)
    requires Valid(s)
    ensures var (s1, t1) := CreateTask(s, name, date, initialSeconds);
      var (_, t2) := CreateTask(DeleteTask(s1, t1.id), name2, date2, initialSeconds2);
      t2.id > t1.id
  {
  }
}

=== FILE: text.dfy ===
/** Characters, decimal numerals, whitespace trimming and splitting on a
    separator: the string vocabulary shared by the duration and date codecs. */
module Text {

  /** An ASCII decimal digit, the class `\d` denotes in a regular expression
      without the unicode flag. */
  predicate IsDigit(c: char) {
    '0' <= c <= '9'
  }

  function DigitValue(c: char): (d: nat)
    requires IsDigit(c)
    ensures d < 10
  {
    c as int - '0' as int
  }

  function DigitChar(d: nat): (c: char)
    requires d < 10
    ensures IsDigit(c) && DigitValue(c) == d
  {
    ('0' as int + d) as char
  }

  predicate AllDigits(s: string) {
    forall i :: 0 <= i < |s| ==> IsDigit(s[i])
  }

  /** One or more digits: what `\d+` matches. */
  predicate IsNumeral(s: string) {
    |s| > 0 && AllDigits(s)
  }

  /** A numeral with no superfluous leading zero, as `Number.prototype.toString`
      prints a non-negative integer. */
  predicate IsCanonicalNumeral(s: string) {
    IsNumeral(s) && (|s| > 1 ==> s[0] != '0')
  }

  /** The number a string of digits denotes in base ten (`parseInt(s, 10)` on
      a numeral). */
  function Value(s: string): nat
    requires AllDigits(s)
  {
    if |s| == 0 then 0 else Value(s[..|s| - 1]) * 10 + DigitValue(s[|s| - 1])
  }

  /** The decimal numeral of a non-negative integer. */
  function NatToString(n: nat): (r: string)
    ensures IsCanonicalNumeral(r)
  {
    if n < 10 then [DigitChar(n)] else NatToString(n / 10) + [DigitChar(n % 10)]
  }

  lemma {:induction false} ValueOfNatToString(n: nat)
    ensures Value(NatToString(n)) == n
  {
    if n >= 10 {
      var p := NatToString(n / 10);
      assert NatToString(n) == p + [DigitChar(n % 10)];
      assert (p + [DigitChar(n % 10)])[..|p|] == p;
      ValueOfNatToString(n / 10);
    }
  }

  /** A leading zero does not change the value of a numeral. */
  lemma {:induction false} ValueLeadingZero(s: string)
    requires AllDigits(s)
    ensures AllDigits("0" + s) && Value("0" + s) == Value(s)
  {
    var z := "0" + s;
    assert AllDigits(z) by {
      forall i | 0 <= i < |z| ensures IsDigit(z[i]) {
        if i > 0 { assert z[i] == s[i - 1]; }
      }
    }
    if |s| > 0 {
      var s' := s[..|s| - 1];
      assert z[..|z| - 1] == "0" + s';
      ValueLeadingZero(s');
    }
  }

  /** Reading back a canonical numeral gives the numeral itself. */
  lemma {:induction false} NatToStringOfValue(s: string)
    requires IsCanonicalNumeral(s)
    ensures NatToString(Value(s)) == s
  {
    var n := |s|;
    if n == 1 {
      assert Value(s) == DigitValue(s[0]);
      assert [DigitChar(DigitValue(s[0]))] == s;
    } else {
      var p := s[..n - 1];
      assert IsCanonicalNumeral(p) by {
        assert p[0] == s[0];
      }
      NatToStringOfValue(p);
      PositiveValue(p);
      var v := Value(s);
      assert v == Value(p) * 10 + DigitValue(s[n - 1]);
      assert v / 10 == Value(p) && v % 10 == DigitValue(s[n - 1]);
      assert v >= 10;
      assert NatToString(v) == NatToString(Value(p)) + [DigitChar(DigitValue(s[n - 1]))];
      assert s == p + [s[n - 1]];
    }
  }

  /** A canonical numeral of two or more digits denotes a positive number. */
  lemma {:induction false} PositiveValue(s: string)
    requires IsCanonicalNumeral(s) && s[0] != '0'
    ensures Value(s) > 0
  {
    if |s| > 1 {
      var p := s[..|s| - 1];
      assert p[0] == s[0];
      PositiveValue(p);
    }
  }

  /** `s.padStart(2, "0")`: zeros in front until the string is two long. */
  function PadStart2(s: string): (r: string)
    ensures |r| == if |s| >= 2 then |s| else 2
    ensures r[|r| - |s|..] == s
    ensures forall i :: 0 <= i < |r| - |s| ==> r[i] == '0'
  {
    if |s| >= 2 then s else if |s| == 1 then "0" + s else "00"
  }

  /** The value of a padded numeral is the value of the numeral. */
  lemma {:induction false} PadStart2Value(s: string)
    requires AllDigits(s)
    ensures AllDigits(PadStart2(s)) && Value(PadStart2(s)) == Value(s)
  {
    if |s| == 1 {
      ValueLeadingZero(s);
    } else if |s| == 0 {
      ValueLeadingZero(s);
      ValueLeadingZero("0" + s);
      assert "0" + ("0" + s) == "00";
    }
  }

  /** ECMAScript white space and line terminators: the characters
      `String.prototype.trim` and `parseInt` skip. */
  predicate IsWhitespace(c: char) {
    || c == '\t' || c == '\n' || c == '\U{000B}' || c == '\U{000C}' || c == '\r'
    || c == ' ' || c == '\U{00A0}' || c == '\U{1680}'
    || ('\U{2000}' <= c <= '\U{200A}')
    || c == '\U{2028}' || c == '\U{2029}' || c == '\U{202F}' || c == '\U{205F}'
    || c == '\U{3000}' || c == '\U{FEFF}'
  }

  predicate IsBlank(s: string) {
    forall i :: 0 <= i < |s| ==> IsWhitespace(s[i])
  }

  /** `s.trimStart()`: the longest suffix of `s` that does not start with
      white space. */
  function TrimStart(s: string): (r: string)
    ensures |r| <= |s| && r == s[|s| - |r|..]
    ensures IsBlank(s[..|s| - |r|])
    ensures |r| > 0 ==> !IsWhitespace(r[0])
  {
    if |s| > 0 && IsWhitespace(s[0]) then TrimStart(s[1..]) else s
  }

  /** `s.trimEnd()`: the longest prefix of `s` that does not end with white
      space. */
  function TrimEnd(s: string): (r: string)
    ensures |r| <= |s| && r == s[..|r|]
    ensures IsBlank(s[|r|..])
    ensures |r| > 0 ==> !IsWhitespace(r[|r| - 1])
    ensures |s| > 0 && !IsWhitespace(s[0]) ==> |r| > 0
  {
    if |s| > 0 && IsWhitespace(s[|s| - 1]) then TrimEnd(s[..|s| - 1]) else s
  }

  /** `s.trim()`. */
  function Trim(s: string): (r: string)
    ensures |r| > 0 ==> !IsWhitespace(r[0]) && !IsWhitespace(r[|r| - 1])
    ensures IsBlank(s) <==> |r| == 0
  {
    var t := TrimStart(s);
    var r := TrimEnd(t);
    assert |t| > 0 ==> !IsBlank(s) by {
      if |t| > 0 {
        assert t[0] == s[|s| - |t|];
      }
    }
    assert |t| == 0 ==> s[..|s| - |t|] == s;
    r
  }

  /** A string that neither starts nor ends with white space is its own trim. */
  lemma TrimUnpadded(s: string)
    requires |s| > 0 && !IsWhitespace(s[0]) && !IsWhitespace(s[|s| - 1])
    ensures Trim(s) == s
  {
  }

  /** Trimming a second time changes nothing. */
  lemma TrimIdempotent(s: string)
    ensures Trim(Trim(s)) == Trim(s)
  {
    var t := Trim(s);
    if |t| > 0 {
      TrimUnpadded(t);
    }
  }

  lemma {:induction false} TrimStartBlank(pre: string, u: string)
    requires IsBlank(pre) && (|u| == 0 || !IsWhitespace(u[0]))
    ensures TrimStart(pre + u) == u
    decreases |pre|
  {
    if |pre| > 0 {
      assert (pre + u)[0] == pre[0] && (pre + u)[1..] == pre[1..] + u;
      TrimStartBlank(pre[1..], u);
    } else {
      assert pre + u == u;
    }
  }

  lemma {:induction false} TrimEndBlank(u: string, post: string)
    requires IsBlank(post) && (|u| == 0 || !IsWhitespace(u[|u| - 1]))
    ensures TrimEnd(u + post) == u
    decreases |post|
  {
    if |post| > 0 {
      var q := post[..|post| - 1];
      var w := u + post;
      assert w[|w| - 1] == post[|post| - 1] && w[..|w| - 1] == u + q;
      TrimEndBlank(u, q);
    } else {
      assert u + post == u;
    }
  }

  /** White space around a string that neither starts nor ends with white
      space is exactly what trimming removes. */
  lemma TrimPadded(pre: string, t: string, post: string)
    requires IsBlank(pre) && IsBlank(post)
    requires |t| > 0 && !IsWhitespace(t[0]) && !IsWhitespace(t[|t| - 1])
    ensures Trim(pre + t + post) == t
  {
    assert pre + t + post == pre + (t + post);
    assert (t + post)[0] == t[0];
    TrimStartBlank(pre, t + post);
    TrimEndBlank(t, post);
  }

  /** The fields joined back with the separator between them. */
  function Join(fields: seq<string>, sep: char): string
    requires |fields| > 0
  {
    if |fields| == 1 then fields[0] else fields[0] + [sep] + Join(fields[1..], sep)
  }

  /** `s.split(sep)` for a one-character separator: the unique sequence of
      separator-free fields whose join is `s`. */
  function Split(s: string, sep: char): (r: seq<string>)
    ensures |r| > 0
    ensures forall i :: 0 <= i < |r| ==> sep !in r[i]
    ensures Join(r, sep) == s
  {
    if |s| == 0 then [""]
    else
      var rest := Split(s[1..], sep);
      if s[0] == sep then
        assert Join([""] + rest, sep) == [sep] + Join(rest, sep) by {
          assert ([""] + rest)[1..] == rest;
        }
        [""] + rest
      else
        var r := [[s[0]] + rest[0]] + rest[1..];
        assert Join(r, sep) == [s[0]] + Join(rest, sep) by {
          if |rest| > 1 {
            assert r[1..] == rest[1..];
          }
        }
        assert s == [s[0]] + s[1..];
        r
  }

  /** Splitting a string without the separator yields the string. */
  lemma {:induction false} SplitWithoutSeparator(a: string, sep: char)
    requires sep !in a
    ensures Split(a, sep) == [a]
  {
    if |a| > 0 {
      assert sep !in a[1..];
      SplitWithoutSeparator(a[1..], sep);
      assert a == [a[0]] + a[1..];
    }
  }

  /** A separator-free prefix becomes the first field. */
  lemma {:induction false} SplitAtSeparator(a: string, sep: char, b: string)
    requires sep !in a
    ensures Split(a + [sep] + b, sep) == [a] + Split(b, sep)
  {
    var s := a + [sep] + b;
    if |a| == 0 {
      assert s[1..] == b;
    } else {
      assert s[1..] == a[1..] + [sep] + b;
      assert sep !in a[1..];
      SplitAtSeparator(a[1..], sep, b);
      assert a == [a[0]] + a[1..];
    }
  }

  /** A numeral contains neither a colon nor a space. */
  lemma NumeralHasNoSeparator(s: string, sep: char)
    requires AllDigits(s) && !IsDigit(sep)
    ensures sep !in s
  {
    assert forall i :: 0 <= i < |s| ==> s[i] != sep;
  }

  /** Splitting the join of separator-free fields gives back the fields. */
  lemma {:induction false} SplitOfJoin(fields: seq<string>, sep: char)
    requires |fields| > 0
    requires forall i :: 0 <= i < |fields| ==> sep !in fields[i]
    ensures Split(Join(fields, sep), sep) == fields
  {
    if |fields| == 1 {
      SplitWithoutSeparator(fields[0], sep);
    } else {
      SplitOfJoin(fields[1..], sep);
      SplitAtSeparator(fields[0], sep, Join(fields[1..], sep));
      assert fields == [fields[0]] + fields[1..];
    }
  }

  /** The join of numerals holds only digits and separators. */
  lemma {:induction false} JoinOfNumerals(fields: seq<string>, sep: char)
    requires |fields| > 0
    requires forall i :: 0 <= i < |fields| ==> AllDigits(fields[i])
    ensures forall i :: 0 <= i < |Join(fields, sep)| ==> IsDigit(Join(fields, sep)[i]) || Join(fields, sep)[i] == sep
  {
    if |fields| > 1 {
      JoinOfNumerals(fields[1..], sep);
      var j := Join(fields, sep);
      var rest := Join(fields[1..], sep);
      assert j == fields[0] + [sep] + rest;
      forall i | 0 <= i < |j| ensures IsDigit(j[i]) || j[i] == sep {
        if i < |fields[0]| {
          assert j[i] == fields[0][i];
        } else if i > |fields[0]| {
          assert j[i] == rest[i - |fields[0]| - 1];
        }
      }
    }
  }
}

=== FILE: tracking.dfy ===
/** The active-timer state machine of `useTracking`
    (tauri-app/src/lib/hooks/tracking.svelte.ts), which
    `createTrackingContext` in src/lib/tracking.svelte.ts repeats line for
    line. The task type is a parameter with its `id` accessor; `Date.now()`
    is the `now` argument in milliseconds, and the one-second interval
    callback is the `Tick` transition. Saving is not performed here: `Stop`
    returns the `addTimeToTask` call it would make. */
module Tracking {
  import opened Optional

  /** An interval handle: still firing, or passed to `clearInterval` without
      the handle being dropped (what `cleanup` does). */
  datatype Timer = Running | Cleared

  /** The module state: `currentTask`, `elapsedSeconds`, `startTime` and
      `intervalId`. */
  datatype Tracker<T> = Tracker(current: Option<T>, elapsed: int, start: Option<int>, interval: Option<Timer>)

  /** The store call `stopTracking` makes. */
  datatype Flush = AddTime(taskId: int, seconds: int)

  function Idle<T>(): Tracker<T> {
    Tracker(None, 0, None, None)
  }

  /** `isTracking`: a task is current. */
  predicate IsTracking<T>(t: Tracker<T>) {
    t.current.Some?
  }

  /** The fields agree on whether a task is tracked, and nothing is pending
      when none is. */
  predicate Consistent<T>(t: Tracker<T>) {
    && (t.current.Some? <==> t.start.Some?)
    && (t.current.Some? <==> t.interval.Some?)
    && (t.current.None? ==> t.elapsed == 0)
  }

  /** The interval fires exactly while a task is tracked. */
  predicate Armed<T>(t: Tracker<T>) {
    Consistent(t) && (t.interval == Some(Running) <==> t.current.Some?)
  }

  /** `stopTrackingSync`: back to idle, returning the last ticked elapsed
      seconds. */
  function StopSync<T>(t: Tracker<T>): (r: (Tracker<T>, int))
    ensures r.0 == Idle() && r.1 == t.elapsed
  {
    (Idle(), t.elapsed)
  }

  /** `startTracking(task)` at instant `now`. Another task that is being
      tracked is stopped through `stopTrackingSync`, whose result is
      dropped; the same task (by id) is left as it is. */
  function Start<T>(t: Tracker<T>, task: T, id: T -> int, now: int): (r: Tracker<T>)
    ensures r.current.Some? && id(r.current.value) == id(task)
    ensures t.current.Some? && id(t.current.value) == id(task) ==> r == t
    ensures !(t.current.Some? && id(t.current.value) == id(task)) ==>
      r == Tracker(Some(task), 0, Some(now), Some(Running))
    ensures Consistent(t) ==> Consistent(r)
    ensures Armed(t) ==> Armed(r)
  {
    var t1 := if t.current.Some? && id(t.current.value) != id(task) then StopSync(t).0 else t;
    if t1.current.Some? && id(t1.current.value) == id(task) then t1
    else Tracker(Some(task), 0, Some(now), Some(Running))
  }

  /** The interval callback at instant `now`: while the interval fires and
      `startTime` is truthy (set and not 0), the elapsed seconds become the
      whole seconds since the start. */
  function Tick<T>(t: Tracker<T>, now: int): (r: Tracker<T>)
    ensures r.current == t.current && r.start == t.start && r.interval == t.interval
    ensures t.interval == Some(Running) && t.start.Some? && t.start.value != 0 ==>
      r.elapsed * 1000 <= now - t.start.value < r.elapsed * 1000 + 1000
    ensures !(t.interval == Some(Running) && t.start.Some? && t.start.value != 0) ==> r == t
    ensures Consistent(t) ==> Consistent(r)
    ensures Armed(t) ==> Armed(r)
  {
    if t.interval == Some(Running) && t.start.Some? && t.start.value != 0 then
      t.(elapsed := (now - t.start.value) / 1000)
    else t
  }

  /** `stopTracking`: nothing when idle; otherwise back to idle first, then
      the last ticked elapsed seconds are saved to the task that was
      tracked, when there are any. */
  function Stop<T>(t: Tracker<T>, id: T -> int): (r: (Tracker<T>, Option<Flush>))
    ensures t.current.None? ==> r == (t, None)
    ensures t.current.Some? ==> r.0 == Idle()
    ensures r.1.Some? <==> t.current.Some? && t.elapsed > 0
    ensures r.1.Some? ==> r.1.value == AddTime(id(t.current.value), t.elapsed)
    ensures Consistent(t) ==> Armed(r.0)
  {
    if t.current.None? then (t, None)
    else
      var (idle, elapsed) := StopSync(t);
      (idle, if elapsed > 0 then Some(AddTime(id(t.current.value), elapsed)) else None)
  }

  /** `cleanup`: the interval stops firing, but its handle and the tracked
      task are kept. */
  function Cleanup<T>(t: Tracker<T>): (r: Tracker<T>)
    ensures r.current == t.current && r.elapsed == t.elapsed && r.start == t.start
    ensures r.interval.Some? == t.interval.Some?
    ensures r.interval != Some(Running)
    ensures Consistent(t) ==> Consistent(r)
  {
    if t.interval.Some? then t.(interval := Some(Cleared)) else t
  }

  /** One user-visible step of the timer. */
  datatype Step<T> = StartStep(task: T, now: int) | TickStep(now: int) | StopStep

  /** Starting, ticking and stopping in any order keep the interval firing
      exactly while a task is tracked. */
  lemma {:induction false} ArmedAlong<T>(t: Tracker<T>, id: T -> int, steps: seq<Step<T>>)
    requires Armed(t)
    ensures Armed(Run(t, id, steps))
    decreases |steps|
  {
    if |steps| > 0 {
      var next := match steps[0]
        case StartStep(task, now) => Start(t, task, id, now)
        case TickStep(now) => Tick(t, now)
        case StopStep => Stop(t, id).0;
      ArmedAlong(next, id, steps[1..]);
    }
  }

  /** The state after a sequence of steps, the saves they make dropped. */
  function Run<T>(t: Tracker<T>, id: T -> int, steps: seq<Step<T>>): Tracker<T>
    decreases |steps|
  {
    if |steps| == 0 then t
    else
      var next := match steps[0]
        case StartStep(task, now) => Start(t, task, id, now)
        case TickStep(now) => Tick(t, now)
        case StopStep => Stop(t, id).0;
      Run(next, id, steps[1..])
  }

  /** Switching to another task resets the elapsed time without a save: the
      seconds ticked for the first task are lost. */
  lemma SwitchDropsElapsed<T>(t: Tracker<T>, task: T, id: T -> int, now: int)
    requires t.current.Some? && id(t.current.value) != id(task) && t.elapsed > 0
    ensures Start(t, task, id, now).elapsed == 0
    ensures Stop(Start(t, task, id, now), id).1.None?
  {
  }

  /** A stop before the first tick saves nothing. */
  lemma StopBeforeFirstTick<T>(t: Tracker<T>, task: T, id: T -> int, now: int)
    requires t.current.None?
    ensures Stop(Start(t, task, id, now), id).1.None?
  {
  }

  /** Start, one tick and a stop save the whole seconds between the start
      and the tick, if there are any, to the started task. */
  lemma StartTickStop<T>(task: T, id: T -> int, startAt: int, tickAt: int)
    requires startAt != 0 && tickAt >= startAt + 1000
    ensures var t := Tick(Start(Idle(), task, id, startAt), tickAt);
      Stop(t, id).1 == Some(AddTime(id(task), (tickAt - startAt) / 1000))
  {
  }

  /** A second stop saves nothing. */
  lemma StopTwice<T>(t: Tracker<T>, id: T -> int)
    ensures Stop(Stop(t, id).0, id).1.None?
  {
  }

  /** A later tick never shows fewer elapsed seconds. */
  lemma TickMonotone<T>(t: Tracker<T>, a: int, b: int)
    requires a <= b
    ensures Tick(t, a).elapsed <= Tick(t, b).elapsed || Tick(t, b) == t
  {
    if Tick(t, b) != t {
      var s := t.start.value;
      assert (a - s) / 1000 <= (b - s) / 1000 by {
        MonotoneDiv(a - s, b - s);
      }
    }
  }

  lemma MonotoneDiv(x: int, y: int)
    requires x <= y
    ensures x / 1000 <= y / 1000
  {
  }

  /** `startTracking` as its comment describes it: a task that is being
      switched away from is stopped and its time saved. */
  function StartAndSave<T>(t: Tracker<T>, task: T, id: T -> int, now: int): (r: (Tracker<T>, Option<Flush>))
    ensures r.0 == Start(t, task, id, now)
    ensures r.1.Some? <==> t.current.Some? && id(t.current.value) != id(task) && t.elapsed > 0
    ensures r.1.Some? ==> r.1.value == AddTime(id(t.current.value), t.elapsed)
  {
    if t.current.Some? && id(t.current.value) != id(task) then
      var (stopped, saved) := Stop(t, id);
      (Start(stopped, task, id, now), saved)
    else (Start(t, task, id, now), None)
  }

  /** Switching with the save is a stop followed by a start. */
  lemma StartAndSaveIsStopThenStart<T>(t: Tracker<T>, task: T, id: T -> int, now: int)
    requires t.current.Some? && id(t.current.value) != id(task)
    ensures StartAndSave(t, task, id, now) == (Start(Stop(t, id).0, task, id, now), Stop(t, id).1)
  {
  }
}
